=== FILE: README.md ===
# Wiimote Simple: report decoder and command encoder

A Dafny model of the core of the Wiimote Simple driver (`ca.ubc.cs.wiimote.Wiimote`):
the receive loop that turns one report from the remote into events, the
calibration and button state it keeps while doing so, the extension
(nunchuk) byte remap, the routing of events to listeners, and the command
frames the driver sends. The older copy of the class, which decodes fewer
report types and reports buttons as one deduplicated event, is modelled
alongside it in module `Legacy`.

Everything is a pure function over immutable values. Bytes are unsigned
integers 0..255. Java's signed reads are modelled where the sign changes
the result, which is only in the button word `(b0 << 8) | b1`. The receive
loop is the function `Session.Step(state, frame)`. It returns the new state
and the events in the order the driver dispatches them. Sending a command
is modelled as returning the frames in the order they are sent.

Modules:

- `Bytes`: the byte type, Java's signed reading and single-bit tests.
- `CalibrationStore`: the two calibration points and their 8-byte layout.
- `Sensors`: the 10-bit accelerometer and the IR camera block.
- `Events`: the event type. `ButtonState`: the button state tracker.
- `Extension`: the extension payload remap and its decoding.
- `Commands`: frames, register writes, light and vibration bytes, and the
  initialisation sequences.
- `Listeners`: the listener list and the fan-out of events.
- `Session`: the current driver. `Legacy`: the older driver.

Several behaviours of the code differ from what a reader of the protocol might expect. The model follows the code:

- Remote buttons A, B, 1 and 2 are active-high: after a report, a button is
  pressed when its bit is set. Only the nunchuk's Z and C are active-low.
- All four remote buttons are read from the low four bits of byte 3.
  Byte 2 never affects them.
- The accelerometer z low bits come from `(b1 & 0x80) >> 6`. They are 0 or 2,
  never 1 or 3.
- An IR point's index is its slot's byte offset (0, 3, 6, 9), not 0..3.
- The extension remap `(v ^ 0x17) + 0x17` maps 0x00 to 0x2E and 0x17 to 0x17.
- Calibration values are the high byte times 4 plus two low bits. The bytes
  0x80/0xA0 with zero low bits give 512/640, not 128/160.
- Report 0x37 does not read the IR bytes 7..16 at all.
- A failed read is not a separate error path. It leaves the 32-byte buffer
  zeroed, and report type 0 is then ignored.
- A register write with more than 16 data bytes overruns the 21-byte buffer.
  Java throws before sending. The model returns `None`.

## Model

| member | source | states |
|---|---|---|
| Session.Step | src/main/java/ca/ubc/cs/wiimote/Wiimote.java:353-372 | the decoder never changes listeners or the light; only report 0x21 changes calibration; any report type other than 0x21, 0x30, 0x33, 0x37 leaves the state unchanged and reports nothing |
| Session.Receive | src/main/java/ca/ubc/cs/wiimote/Wiimote.java:340-345 | the 32-byte buffer holds the packet's first bytes and zeros after it |
| Session.FailedReadIgnored | src/main/java/ca/ubc/cs/wiimote/Wiimote.java:340-353 | a failed read leaves a zero buffer, and the step ignores it |
| Session.StepValid | src/main/java/ca/ubc/cs/wiimote/Wiimote.java:353-372 | every step keeps calibration 10-bit, light in -1..3 and listeners unique |
| Session.ReadDataReport | src/main/java/ca/ubc/cs/wiimote/Wiimote.java:355-357 | report 0x21 stores exactly the calibration parsed from bytes 7..14, reports nothing, changes nothing else, and reads only those bytes |
| Session.ButtonsOnlyReport | src/main/java/ca/ubc/cs/wiimote/Wiimote.java:358-360 | report 0x30 reports exactly one button event per changed remote button, in order A, B, 1, 2 (the reference `Transitions`); it changes only remote buttons, keeps Z/C, and depends on byte 3 alone |
| Session.ButtonWordFromByte3 | src/main/java/ca/ubc/cs/wiimote/Wiimote.java:404-431 | two reports with the same byte 3 update the remote buttons identically from any state, whatever byte 2 holds |
| Session.RemoteButtonsFollowByte3 | src/main/java/ca/ubc/cs/wiimote/Wiimote.java:404-431 | after any report with buttons, A/B/1/2 are pressed exactly when bits 3/2/1/0 of byte 3 are set |
| Session.ButtonsAccelIRReport | src/main/java/ca/ubc/cs/wiimote/Wiimote.java:361-365 | report 0x33 gives exactly the remote button transitions (A, B, 1, 2, at most four), then the remote acceleration from bytes 2..6, then the IR points of bytes 7..18; it keeps Z and C and changes nothing but the remote buttons; it reads only bytes 2..18 |
| Session.RemoteAccel | src/main/java/ca/ubc/cs/wiimote/Wiimote.java:436-447 | the remote acceleration reads its high bits from bytes 4..6 and its low bits from the button bytes 2 and 3; it is always reportable |
| Session.ButtonsAccelExtensionReport | src/main/java/ca/ubc/cs/wiimote/Wiimote.java:366-371 | report 0x37 gives exactly the remote button transitions, the remote acceleration from bytes 2..6, then exactly the extension payload's events from bytes 17..22 (nunchuk acceleration, joystick, Z/C); afterwards Z and C are stored as "bit 0 / bit 1 of the remapped byte 22 clear"; it reads only bytes 2..6 and 17..22 |
| Session.SameReportTwice | src/main/java/ca/ubc/cs/wiimote/Wiimote.java:404-496 | feeding the same report again leaves the state unchanged, and a repeated 0x30 report reports nothing |
| Session.TransitionsAreButtonEvents | src/main/java/ca/ubc/cs/wiimote/Wiimote.java:404-431 | the toggle policy yields only button events, at most one per examined button |
| Session.Route | src/main/java/ca/ubc/cs/wiimote/Wiimote.java:122-136 | the callback chosen for an event is one that takes that event |
| Session.RouteUnique | src/main/java/ca/ubc/cs/wiimote/Wiimote.java:122-136 | exactly one callback takes each event: press vs release by `wasPress`, remote vs nunchuk acceleration by source, IR and joystick on their own |
| Session.DeliverToEveryListener | src/main/java/ca/ubc/cs/wiimote/Wiimote.java:120-138 | each registered listener receives every event of a report once, in decoder order; others receive nothing |
| Session.DeliverAt | src/main/java/ca/ubc/cs/wiimote/Wiimote.java:120-138 | callback i of the report's event j is at position j × (listeners) + i, on listener i and the callback for event j: every event reaches the whole list before the next |
| Session.Deliver | src/main/java/ca/ubc/cs/wiimote/Wiimote.java:120-138 | the state after dispatch is the decoder's state; one report makes exactly (listeners × events) callbacks, each to a registered listener on the callback that takes its event |
| Session.AddListener | src/main/java/ca/ubc/cs/wiimote/Wiimote.java:103-107 | adding keeps the session valid and changes nothing but the list; a new listener is appended at the end, a registered one leaves the session unchanged |
| Session.RemoveListener | src/main/java/ca/ubc/cs/wiimote/Wiimote.java:112-115 | removing keeps the session valid and changes nothing but the list; an absent listener leaves the session unchanged, otherwise exactly its first occurrence is cut and the others keep their order |
| Session.SetLight | src/main/java/ca/ubc/cs/wiimote/Wiimote.java:208-214 | only the light changes; for i in 0..3 it becomes `i` and the one frame is the encoder's light frame; otherwise the state is unchanged and nothing is sent |
| Session.Vibrate | src/main/java/ca/ubc/cs/wiimote/Wiimote.java:219-237 | vibration sends the light frame with the current light bit plus the rumble bit 0, then the light frame for the current light alone |
| Session.Open | src/main/java/ca/ubc/cs/wiimote/Wiimote.java:66-97 | a new session starts uncalibrated, with all buttons released, no listeners and light -1, and sends only the calibration read request |
| Session.OpenValid | src/main/java/ca/ubc/cs/wiimote/Wiimote.java:68-75 | the initial state is valid |
| CalibrationStore.Parse | src/main/java/ca/ubc/cs/wiimote/Wiimote.java:390-399 | every value is in [0,1023]; high bits are bytes 0..2 and 4..6, low bits are bit pairs of bytes 3 and 7 |
| CalibrationStore.ParsePoint | src/main/java/ca/ubc/cs/wiimote/Wiimote.java:392-394 | one parsed point has three 10-bit values |
| CalibrationStore.EncodePoint | src/main/java/ca/ubc/cs/wiimote/Wiimote.java:392-394 | the device packing of one point is four bytes whose low-bit byte uses only bits 0..5 |
| CalibrationStore.Encode | src/main/java/ca/ubc/cs/wiimote/Wiimote.java:390-399 | the device packing of both points is eight bytes |
| CalibrationStore.ParseEncodePoint | src/main/java/ca/ubc/cs/wiimote/Wiimote.java:392-394 | parsing recovers any encoded 10-bit point |
| CalibrationStore.ParseEncode | src/main/java/ca/ubc/cs/wiimote/Wiimote.java:390-399 | parsing recovers every 10-bit calibration the device can encode |
| CalibrationStore.EncodeParse | src/main/java/ca/ubc/cs/wiimote/Wiimote.java:390-399 | the parser ignores only the top two bits of bytes 3 and 7 |
| CalibrationStore.ZeroReadsFirstHalf | src/main/java/ca/ubc/cs/wiimote/Wiimote.java:390-399 | bytes 0..3 determine only the zero point; bytes 4..7 determine only the 1 g point |
| CalibrationStore.ParseExample | src/main/java/ca/ubc/cs/wiimote/Wiimote.java:392-398 | the literal response 80 80 80 00 A0 A0 A0 00 gives (512,512,512) and (640,640,640) |
| ButtonState.ButtonWord | src/main/java/ca/ubc/cs/wiimote/Wiimote.java:406 | the word `(b0 << 8) | b1` on signed bytes: its low byte is b1; its next byte is b0, or all ones when b1 is negative (sign extension); it is negative iff either byte is; it fits in 16 signed bits |
| ButtonState.ButtonWordLowBits | src/main/java/ca/ubc/cs/wiimote/Wiimote.java:406-425 | masks 8, 4, 2 and 1 of the word read the same bits of the second byte, whatever its sign |
| ButtonState.UpdateRemote | src/main/java/ca/ubc/cs/wiimote/Wiimote.java:404-431 | after an update A/B/1/2 equal "bit 8/4/2/1 of the word is set"; Z and C are untouched |
| ButtonState.RemoteTransitions | src/main/java/ca/ubc/cs/wiimote/Wiimote.java:404-431 | the reference transitions over A, B, 1, 2 are the four per-button changes in that order |
| ButtonState.RemoteEvents | src/main/java/ca/ubc/cs/wiimote/Wiimote.java:404-431 | one event per changed button, in the order A, B, 1, 2, with `wasPress` equal to the new state |
| ButtonState.RemoteSteady | src/main/java/ca/ubc/cs/wiimote/Wiimote.java:404-431 | the same word twice reports nothing the second time |
| ButtonState.RemoteQuietIffUnchanged | src/main/java/ca/ubc/cs/wiimote/Wiimote.java:404-431 | an update reports nothing exactly when no remote button changes |
| Sensors.DecodeAccel | src/main/java/ca/ubc/cs/wiimote/Wiimote.java:443-447 | x, y, z are in [0,1023]; their high bits are bytes 2, 3, 4; the low bits of x and y are bits 5..6 of bytes 0 and 1; z's low bits are 2 times bit 7 of byte 1, so 0 or 2 |
| Sensors.EncodeAccel | src/main/java/ca/ubc/cs/wiimote/Wiimote.java:443-447 | the device packing of a reading is five bytes |
| Sensors.DecodeEncodeAccel | src/main/java/ca/ubc/cs/wiimote/Wiimote.java:443-447 | decoding recovers every reading whose z low bits are 0 or 2 |
| Sensors.DecodedIsReportable | src/main/java/ca/ubc/cs/wiimote/Wiimote.java:443-447 | every decoded reading is one the packing can produce |
| Sensors.IRSlot | src/main/java/ca/ubc/cs/wiimote/Wiimote.java:463-470 | a slot yields a point iff neither coordinate is 1023; the point has the slot offset as index, x and y in [0,1022], and size `b[i+2] & 0xF` |
| Sensors.SlotX | src/main/java/ca/ubc/cs/wiimote/Wiimote.java:463 | x is 10-bit: its low byte is the slot's first byte and its high two bits are bits 4..5 of the third byte |
| Sensors.SlotY | src/main/java/ca/ubc/cs/wiimote/Wiimote.java:464 | y is 10-bit: its low byte is the slot's second byte and its high two bits are bits 6..7 of the third byte |
| Sensors.IRFrom | src/main/java/ca/ubc/cs/wiimote/Wiimote.java:461-472 | the loop yields exactly the non-sentinel slots at offsets start, start+3, ..., in ascending index order |
| Sensors.DecodeIR | src/main/java/ca/ubc/cs/wiimote/Wiimote.java:459-472 | at most four points, ascending, exactly the non-sentinel slots at 0/3/6/9, coordinates in [0,1022], size in [0,15] |
| Sensors.SlotOffsets | src/main/java/ca/ubc/cs/wiimote/Wiimote.java:461 | the slot offsets of the 12-byte block are exactly 0, 3, 6 and 9 |
| Sensors.EmittedIffNotSentinel | src/main/java/ca/ubc/cs/wiimote/Wiimote.java:463-466 | slot i produces a point iff neither reconstructed coordinate equals 1023 |
| Sensors.EncodeIRSlot | src/main/java/ca/ubc/cs/wiimote/Wiimote.java:463-465 | the device packing of one point is three bytes |
| Sensors.IRSlotEncode | src/main/java/ca/ubc/cs/wiimote/Wiimote.java:463-466 | a slot reports back exactly the point it encodes, or nothing when a coordinate is 1023 |
| Sensors.SentinelSlotSuppressed | src/main/java/ca/ubc/cs/wiimote/Wiimote.java:466 | x_low 0xFF with both high x bits set suppresses slot 0 |
| Extension.Decrypt | src/main/java/ca/ubc/cs/wiimote/Wiimote.java:476-479 | the byte remap `(v ^ 0x17) + 0x17` cut to a byte; `Encrypt` undoes it, so it loses nothing |
| Extension.DecryptEncrypt | src/main/java/ca/ubc/cs/wiimote/Wiimote.java:476-479 | `Encrypt` is a right inverse of the remap |
| Extension.DecryptInjective | src/main/java/ca/ubc/cs/wiimote/Wiimote.java:478 | the remap `((v ^ 0x17) + 0x17) mod 256` is injective, so with `Extension.DecryptEncrypt` a bijection on bytes |
| Extension.DecryptExamples | src/main/java/ca/ubc/cs/wiimote/Wiimote.java:478 | 0x00 maps to 0x2E, 0x17 to 0x17; applying it twice is not the identity |
| Extension.DecryptAllEncryptAll | src/main/java/ca/ubc/cs/wiimote/Wiimote.java:476-479 | the payload remap undoes the device's remap |
| Extension.DecryptAllInjective | src/main/java/ca/ubc/cs/wiimote/Wiimote.java:476-479 | two payloads that are equal after the in-place remap were equal before it |
| Extension.DecodeExtension | src/main/java/ca/ubc/cs/wiimote/Wiimote.java:474-504 | the events are the nunchuk acceleration decoded from remapped bytes 0..4, the joystick (remapped byte 0 minus 130, remapped byte 1 minus 130) in [-130,125], then only the changed Z, C; Z/C become "bit 0/1 of remapped byte 5 is clear"; remote buttons untouched |
| Extension.ExtensionTransitions | src/main/java/ca/ubc/cs/wiimote/Wiimote.java:483-496 | the reference transitions over Z, C are the two per-button changes in that order |
| Extension.ExtensionButtonEvents | src/main/java/ca/ubc/cs/wiimote/Wiimote.java:483-496 | one event per changed extension button, Z before C, carrying the new state |
| Extension.ExtensionSteady | src/main/java/ca/ubc/cs/wiimote/Wiimote.java:483-496 | the same payload twice reports only the acceleration and joystick the second time |
| Extension.JoystickRoundTrip | src/main/java/ca/ubc/cs/wiimote/Wiimote.java:481 | a device-remapped joystick position `(jx, jy)` in [-130,125] is reported back exactly |
| Commands.Frame | src/main/java/ca/ubc/cs/wiimote/Wiimote.java:279-294 | every frame has length 2 + payload length |
| Commands.FrameRoundTrip | src/main/java/ca/ubc/cs/wiimote/Wiimote.java:283-286 | a frame is `[0x52, cmd] ++ payload`: reading it back gives cmd and payload, and only that frame reads back so |
| Commands.AddressBytes | src/main/java/ca/ubc/cs/wiimote/Wiimote.java:248-250 | the address is cut into three bytes |
| Commands.AddressBytesValue | src/main/java/ca/ubc/cs/wiimote/Wiimote.java:248-250 | the three address bytes are the Java int address modulo 2^24, big-endian |
| Commands.RegisterPayload | src/main/java/ca/ubc/cs/wiimote/Wiimote.java:242-258 | a payload exists iff the data has at most 16 bytes; it is 21 bytes: 0x04, address, length, data, zero padding |
| Commands.RegisterRoundTrip | src/main/java/ca/ubc/cs/wiimote/Wiimote.java:244-252 | reading a register-write payload back gives the address modulo 2^24 and the data |
| Commands.RegisterWrite | src/main/java/ca/ubc/cs/wiimote/Wiimote.java:242-258 | a register-write frame exists iff the data has at most 16 bytes, and it is 23 bytes long |
| Commands.DescribeRegisterWrite | src/main/java/ca/ubc/cs/wiimote/Wiimote.java:242-258 | a register-write frame reads back as that write |
| Commands.DescribePlain | src/main/java/ca/ubc/cs/wiimote/Wiimote.java:279-294 | any other frame reads back as its command and payload |
| Commands.LightBitsOneHot | src/main/java/ca/ubc/cs/wiimote/Wiimote.java:213 | each light index -1..3 selects one distinct bit among bits 3..7, doubling per index |
| Commands.SetLight | src/main/java/ca/ubc/cs/wiimote/Wiimote.java:208-214 | for i in 0..3 the light becomes i and one light frame carrying `1 << (4+i)` is sent; otherwise nothing changes and nothing is sent |
| Commands.LightBits | src/main/java/ca/ubc/cs/wiimote/Wiimote.java:213 | the light byte for index -1..3 is a single bit at or above bit 3 |
| Commands.Vibrate | src/main/java/ca/ubc/cs/wiimote/Wiimote.java:219-237 | vibration sends two light frames |
| Commands.VibrateBytes | src/main/java/ca/ubc/cs/wiimote/Wiimote.java:219-237 | for every light -1..3 the two frames are the light bit plus bit 0, then the light bit alone (0x09 then 0x08 before any `setLight`); for a chosen light the closing frame is the frame `setLight` sends |
| Commands.ReadCalibration | src/main/java/ca/ubc/cs/wiimote/Wiimote.java:263-274 | the request is one 8-byte frame that reads back as command 0x17 asking for 8 bytes at address 0x16 |
| Commands.InitCommands | src/main/java/ca/ubc/cs/wiimote/Wiimote.java:161-187 | the camera initialisation sends seven frames |
| Commands.InitCommandsProgram | src/main/java/ca/ubc/cs/wiimote/Wiimote.java:165-181 | the seven frames read back as IR enable, IR enable 2, then writes to 0xb00030, 0xb00000, 0xb0001a, 0xb00033, 0xb00030 with their data |
| Commands.EnableIREvents | src/main/java/ca/ubc/cs/wiimote/Wiimote.java:144-148 | enabling IR sends eight frames |
| Commands.EnableIRProgram | src/main/java/ca/ubc/cs/wiimote/Wiimote.java:144-187 | enabling IR sends reporting mode 04 33, then the camera initialisation, in that order |
| Commands.EnableExtensionEvents | src/main/java/ca/ubc/cs/wiimote/Wiimote.java:153-159 | enabling the extension sends nine frames |
| Commands.EnableExtensionProgram | src/main/java/ca/ubc/cs/wiimote/Wiimote.java:153-187 | the same sequence with reporting mode 04 37, then a write of 00 to 0xa40040 |
| Listeners.Add | src/main/java/ca/ubc/cs/wiimote/Wiimote.java:103-107 | the listener is present afterwards; nothing else is added; a present listener leaves the list unchanged; no duplicates are created |
| Listeners.AddIdempotent | src/main/java/ca/ubc/cs/wiimote/Wiimote.java:103-107 | adding twice equals adding once |
| Listeners.Remove | src/main/java/ca/ubc/cs/wiimote/Wiimote.java:112-115 | removing an absent listener is a no-op; a present one shortens the list by one; others are kept; a duplicate-free list no longer holds it |
| Listeners.RemoveFirstOccurrence | src/main/java/ca/ubc/cs/wiimote/Wiimote.java:112-115 | exactly the first occurrence is removed and the rest keep their order |
| Listeners.RemoveAdd | src/main/java/ca/ubc/cs/wiimote/Wiimote.java:103-115 | removing a listener just added restores the original list |
| Listeners.Dispatch | src/main/java/ca/ubc/cs/wiimote/Wiimote.java:120-138 | one call per listener, in list order, on the routed callback |
| Listeners.DispatchAll | src/main/java/ca/ubc/cs/wiimote/Wiimote.java:120-138 | dispatching a sequence of events makes one call per listener per event, each to a listener of the list on the handler `route` picks for its event |
| Listeners.DispatchAllAt | src/main/java/ca/ubc/cs/wiimote/Wiimote.java:120-138 | event j reaches listener i at position j × (listeners) + i: each event goes to the whole list, in list order, before the next event |
| Listeners.ReceivedAppend | src/main/java/ca/ubc/cs/wiimote/Wiimote.java:120-138 | what a listener receives from two dispatch runs is what it receives from each, in order |
| Listeners.ReceivedDispatch | src/main/java/ca/ubc/cs/wiimote/Wiimote.java:120-138 | one dispatch reaches a registered listener once and any other not at all |
| Listeners.EveryListenerSeesEveryEvent | src/main/java/ca/ubc/cs/wiimote/Wiimote.java:120-138 | over a sequence of events, each registered listener receives exactly that sequence |
| Bytes.Signed | src/main/java/ca/ubc/cs/wiimote/Wiimote.java:406 | Java's signed reading of a byte is in [-128,127], congruent to it modulo 256, and negative iff the byte is at least 128 |
| Legacy.Open | ubc/cs/wiimote/Wiimote.java:67-95 | a new session starts uncalibrated, with no last button event, no listeners and light -1, and sends only the calibration read request |
| Legacy.Step | ubc/cs/wiimote/Wiimote.java:290-302 | only 0x21 changes calibration; only 0x30 and 0x33 change the last button event or report anything; every other type changes nothing |
| Legacy.ExtensionReportIgnored | ubc/cs/wiimote/Wiimote.java:290-302 | report 0x37 changes nothing and reports nothing |
| Legacy.CalibrationReport | ubc/cs/wiimote/Wiimote.java:315-323 | report 0x21 reports nothing and stores exactly the 10-bit calibration parsed from bytes 7..14, the same layout as the current driver |
| Legacy.ButtonsOnlyReport | ubc/cs/wiimote/Wiimote.java:294-296 | report 0x30 reports the button word exactly when it is new and then records it as the last one; otherwise nothing changes; with a reflexive `same`, the same report a second time reports nothing |
| Legacy.ButtonDedup | ubc/cs/wiimote/Wiimote.java:328-335 | an event is reported iff it differs from the last one, or there is none; then it becomes the last one; otherwise the last is kept |
| Legacy.DedupTwice | ubc/cs/wiimote/Wiimote.java:328-335 | with a reflexive equality, the same word twice is reported at most once |
| Legacy.ButtonsAccelIRReport | ubc/cs/wiimote/Wiimote.java:340-366 | report 0x33 gives the button word exactly when it is new (no last event, or not `same` as it), recording it as the last one, then the acceleration decoded from bytes 2..6, then exactly one IR event per decoded point of bytes 7..18, in order |
| Legacy.Route | ubc/cs/wiimote/Wiimote.java:116-126 | button events go to the button-change callback, IR to IR input, acceleration to acceleration input |
| Legacy.DeliverToEveryListener | ubc/cs/wiimote/Wiimote.java:116-126 | each registered listener receives every event once, in decoder order |
| Legacy.DeliverAt | ubc/cs/wiimote/Wiimote.java:116-126 | callback i of event j is at position j × (listeners) + i, on listener i and the callback for event j: every event reaches the whole list before the next |
| Legacy.Deliver | ubc/cs/wiimote/Wiimote.java:116-126 | the state after dispatch is the decoder's state; one report makes exactly (listeners × events) callbacks, each to a registered listener on the callback for its event |
| Legacy.AddListener | ubc/cs/wiimote/Wiimote.java:101-104 | the listener is registered afterwards: a new one is appended at the end, keeping the others in order; re-adding leaves the state unchanged; no duplicates are created |
| Legacy.SetLight | ubc/cs/wiimote/Wiimote.java:168-173 | only the light changes; for i in 0..3 it becomes `i` and the one frame is the encoder's light frame; otherwise the state is unchanged and nothing is sent |
| Legacy.EnableIREvents | ubc/cs/wiimote/Wiimote.java:131-156 | the inlined sequence is exactly the current driver's IR enable sequence |

The older file's encoder is identical to the current one: the light byte,
vibration bytes, register write, calibration read and framing
(ubc/cs/wiimote/Wiimote.java:168-246). The `Commands` members model both
copies. The older file's `removeListener` and its accelerometer and IR
formulas are also identical to the current ones. They are modelled by
`Listeners.Remove`, `Sensors.DecodeAccel` and `Sensors.DecodeIR`.

## Left out

- Normalised acceleration `(raw - zero) / (one - zero)`: it is floating point, and it divides by zero before calibration. Acceleration events carry the raw 10-bit readings instead.
- Bluetooth connection setup, `send`/`receive`, `cleanup` and `finalize`: these are foreign I/O calls. Sending is modelled as returning frames, and receiving as the `Frame` argument of a step.
- The receive thread, the `connectionOpen` polling, `Thread.sleep` delays, the vibration timer thread and `synchronized`: these are concurrency and timing. Only the order of the frames is kept.
- `Session.Vibrate`: the delay between the two frames and the timer race with a concurrent `setLight` are not modelled.
- `Commands.Vibrate`: its own contract states only the number of frames; the bytes are stated by `Commands.VibrateBytes`.
- Listeners that throw, or that add or remove listeners during dispatch: listener code is outside the driver. The driver does not catch listener exceptions.
- `Legacy.ButtonDedup`: the equality of button events (`WiiButtonEvent.equals`) is not part of this model. It is a parameter. Its "reported once" property assumes the equality is reflexive.
- The `WiiButtonEvent`, `WiiIREvent` and `WiimoteListener` classes are not part of this model. Their fields appear as datatype constructors, and their callbacks as `Handler` values.
- `disableIREvents` (empty), the FOV constants, the unused `gate`, `inited` and `lastButtonEvent` fields of the current driver, and `getLight`: no behaviour.
- `WiimoteDiscoveryListener`: a callback interface with no logic.

=== FILE: bytes.dfy ===
/** Bytes as they travel between the host and the remote, and the handful of bit
    operations the driver applies to them.  A byte is held as its unsigned value;
    Java's signed reading of the same byte is `Signed`. */
module Bytes {

  /** An unsigned byte, 0..255. */
  type byte = b: int | 0 <= b < 256

  /** A Java `int`. */
  type int32 = x: int | -0x8000_0000 <= x < 0x8000_0000

  datatype Option<+T> = None | Some(value: T)

  /** The value Java sees when it reads a `byte`: two's complement, sign-extended. */
  function Signed(b: byte): (s: int)
    ensures -128 <= s < 128
    ensures s % 256 == b
    ensures (s < 0) == (b >= 128)
  {
    if b < 128 then b else b - 256
  }

  /** A mask with exactly one bit set. */
  predicate SingleBit(mask: int)
  {
    mask == 1 || mask == 2 || mask == 4 || mask == 8 || mask == 16 || mask == 32 || mask == 64 || mask == 128
  }

  /** Java's `(v & mask) == 0` for a one-bit mask, on an `int` in two's complement.
      Dafny's `/` rounds toward minus infinity for a positive divisor, as the
      arithmetic shift does, so this also reads the right bit of a negative `v`. */
  predicate Clear(v: int, mask: int)
    requires SingleBit(mask)
  {
    (v / mask) % 2 == 0
  }

  /** Java's `(byte) (a | b)` on two bytes. */
  function Or(a: byte, b: byte): byte
  {
    ((a as bv8) | (b as bv8)) as int
  }

  /** Converting a byte to `bv8` and back is the identity. */
  lemma ByteRoundTrip(v: byte)
    ensures (v as bv8) as int == v
  {
    assert (v as bv8) as int < 256;
  }

  /** Converting a `bv8` to a byte and back is the identity. */
  lemma BitsRoundTrip(x: bv8)
    ensures (x as int) as bv8 == x
  {
  }

  /** Every byte of `s` is zero. */
  predicate AllZero(s: seq<byte>)
  {
    forall k :: 0 <= k < |s| ==> s[k] == 0
  }
}

=== FILE: calibration.dfy ===
/** The accelerometer calibration store: two reference points (at rest and at
    1 g), three 10-bit axis readings each, parsed from the eight bytes the
    remote returns for the calibration read request. */
module CalibrationStore {
  import opened Bytes

  /** One reading per accelerometer axis. */
  datatype Axes = Axes(x: int, y: int, z: int)

  /** The two reference points; the driver starts with both at zero. */
  datatype Calibration = Calibration(zero: Axes, one: Axes)

  const Uncalibrated := Calibration(Axes(0, 0, 0), Axes(0, 0, 0))

  predicate TenBit(v: int)
  {
    0 <= v < 1024
  }

  predicate ValidAxes(a: Axes)
  {
    TenBit(a.x) && TenBit(a.y) && TenBit(a.z)
  }

  predicate Valid(c: Calibration)
  {
    ValidAxes(c.zero) && ValidAxes(c.one)
  }

  /** One point of the response: the high eight bits of axis `a` sit in byte
      `p + a`, its low two bits in bits `2a..2a+1` of byte `p + 3`.
      (`(b[p+a] & 0xFF) << 2` plus `(b[p+3] & 3)`, `(b[p+3] & 0xC) >> 2`,
      `(b[p+3] & 0x30) >> 4`.) */
  function ParsePoint(b: seq<byte>, p: nat): (a: Axes)
    requires p + 4 <= |b|
    ensures ValidAxes(a)
  {
    Axes(b[p] as int * 4 + b[p + 3] % 4,
         b[p + 1] as int * 4 + (b[p + 3] / 4) % 4,
         b[p + 2] as int * 4 + (b[p + 3] / 16) % 4)
  }

  /** The calibration response: bytes 0..3 give the zero point, 4..7 the 1 g point. */
  function Parse(b: seq<byte>): (c: Calibration)
    requires |b| == 8
    ensures Valid(c)
    ensures c.zero.x / 4 == b[0] && c.zero.y / 4 == b[1] && c.zero.z / 4 == b[2]
    ensures c.one.x / 4 == b[4] && c.one.y / 4 == b[5] && c.one.z / 4 == b[6]
    ensures c.zero.x % 4 == b[3] % 4 && c.zero.y % 4 == (b[3] / 4) % 4 && c.zero.z % 4 == (b[3] / 16) % 4
    ensures c.one.x % 4 == b[7] % 4 && c.one.y % 4 == (b[7] / 4) % 4 && c.one.z % 4 == (b[7] / 16) % 4
  {
    Calibration(ParsePoint(b, 0), ParsePoint(b, 4))
  }

  /** The inverse layout: how a device packs one point into four bytes. */
  function EncodePoint(a: Axes): (r: seq<byte>)
    requires ValidAxes(a)
    ensures |r| == 4 && r[3] < 64
  {
    [a.x / 4, a.y / 4, a.z / 4, a.x % 4 + (a.y % 4) * 4 + (a.z % 4) * 16]
  }

  function Encode(c: Calibration): (r: seq<byte>)
    requires Valid(c)
    ensures |r| == 8
  {
    EncodePoint(c.zero) + EncodePoint(c.one)
  }

  /** Three two-bit fields packed into one byte come back out unchanged. */
  lemma UnpackLowBits(lx: int, ly: int, lz: int)
    requires 0 <= lx < 4 && 0 <= ly < 4 && 0 <= lz < 4
    ensures (lx + ly * 4 + lz * 16) % 4 == lx
    ensures ((lx + ly * 4 + lz * 16) / 4) % 4 == ly
    ensures ((lx + ly * 4 + lz * 16) / 16) % 4 == lz
  {
  }

  lemma ParseEncodePoint(a: Axes)
    requires ValidAxes(a)
    ensures ParsePoint(EncodePoint(a), 0) == a
  {
    UnpackLowBits(a.x % 4, a.y % 4, a.z % 4);
  }

  /** Parsing recovers every calibration the device can report. */
  lemma ParseEncode(c: Calibration)
    requires Valid(c)
    ensures Parse(Encode(c)) == c
  {
    var b := Encode(c);
    ParseEncodePoint(c.zero);
    ParseEncodePoint(c.one);
    assert b[4..8] == EncodePoint(c.one);
    assert ParsePoint(b, 4) == ParsePoint(b[4..8], 0);
    assert ParsePoint(b, 0) == ParsePoint(b[0..4], 0);
    assert b[0..4] == EncodePoint(c.zero);
  }

  /** The only bits the parser ignores are the top two bits of bytes 3 and 7:
      when they are clear, encoding the parsed result gives the bytes back. */
  lemma EncodeParse(b: seq<byte>)
    requires |b| == 8 && b[3] < 64 && b[7] < 64
    ensures Encode(Parse(b)) == b
  {
    var c := Parse(b);
    RepackLowBits(b[3]);
    RepackLowBits(b[7]);
    assert EncodePoint(c.zero) == b[..4];
    assert EncodePoint(c.one) == b[4..];
    assert b == b[..4] + b[4..];
  }

  /** A byte below 64 is its three two-bit fields packed again. */
  lemma RepackLowBits(v: int)
    requires 0 <= v < 64
    ensures v % 4 + ((v / 4) % 4) * 4 + ((v / 16) % 4) * 16 == v
  {
  }

  /** Bytes 0..3 determine the zero point and nothing else. */
  lemma ZeroReadsFirstHalf(b: seq<byte>, b': seq<byte>)
    requires |b| == 8 && |b'| == 8
    ensures b[..4] == b'[..4] ==> Parse(b).zero == Parse(b').zero
    ensures b[4..] == b'[4..] ==> Parse(b).one == Parse(b').one
  {
    if b[..4] == b'[..4] {
      assert b[0] == b'[0] && b[1] == b'[1] && b[2] == b'[2] && b[3] == b'[3];
    }
    if b[4..] == b'[4..] {
      assert b[4] == b'[4] && b[5] == b'[5] && b[6] == b'[6] && b[7] == b'[7];
    }
  }

  /** The high bytes 0x80 and 0xA0 with zero low bits give 0x80 * 4 and 0xA0 * 4. */
  lemma ParseExample()
    ensures Parse([0x80, 0x80, 0x80, 0x00, 0xA0, 0xA0, 0xA0, 0x00])
            == Calibration(Axes(512, 512, 512), Axes(640, 640, 640))
  {
  }
}

=== FILE: commands.dfy ===
/** The command encoder: every outgoing frame is the header byte 0x52, a
    command byte and a payload.  Sending is modelled by returning the frames
    in the order they are sent; the delays between them are not modelled. */
module Commands {
  import opened Bytes

  const Header: byte := 0x52
  const CommandLight: byte := 0x11
  const CommandIR: byte := 0x13
  const CommandIR2: byte := 0x1a
  const CommandRegister: byte := 0x16
  const CommandReporting: byte := 0x12
  const CommandReadCalibration: byte := 0x17

  /** Register writes carry at most this many data bytes. */
  const MaxRegisterData := 16

  /** An outgoing frame: header, command byte, payload. */
  function Frame(command: byte, payload: seq<byte>): (m: seq<byte>)
    ensures |m| == 2 + |payload|
  {
    [Header, command] + payload
  }

  /** Reading a frame back: its command byte and payload, if it has the header. */
  function ParseFrame(m: seq<byte>): Option<(byte, seq<byte>)>
  {
    if |m| >= 2 && m[0] == Header then Some((m[1], m[2..])) else None
  }

  /** Framing is inverse to reading a frame back, in both directions. */
  lemma FrameRoundTrip(command: byte, payload: seq<byte>, m: seq<byte>)
    ensures ParseFrame(Frame(command, payload)) == Some((command, payload))
    ensures ParseFrame(m) == Some((command, payload)) ==> Frame(command, payload) == m
  {
    assert Frame(command, payload)[2..] == payload;
    if ParseFrame(m) == Some((command, payload)) {
      assert m == [m[0], m[1]] + m[2..];
    }
  }

  /** `n` zero bytes. */
  function Zeros(n: nat): (z: seq<byte>)
    ensures |z| == n && AllZero(z)
  {
    seq(n, _ => 0)
  }

  /** The 24-bit register address in big-endian order, as the driver cuts it
      from a Java `int`: `address >> 16 & 0xff`, `address >> 8 & 0xff`, `address & 0xff`. */
  function AddressBytes(address: int32): (r: seq<byte>)
    ensures |r| == 3
  {
    [(address / 0x10000) % 0x100, (address / 0x100) % 0x100, address % 0x100]
  }

  /** The 21-byte register-write payload: 0x04, the address, the data length,
      the data, zero padding.  More than 16 data bytes overrun the buffer and
      the driver throws before sending anything. */
  function RegisterPayload(address: int32, data: seq<byte>): (r: Option<seq<byte>>)
    ensures r.Some? <==> |data| <= MaxRegisterData
    ensures r.Some? ==> |r.value| == 21 && r.value[0] == 0x04 && r.value[4] == |data|
    ensures r.Some? ==> r.value[5..5 + |data|] == data && AllZero(r.value[5 + |data|..])
  {
    if |data| > MaxRegisterData then None
    else
      var p := [0x04] + AddressBytes(address) + [|data|] + data + Zeros(MaxRegisterData - |data|);
      assert p[5..5 + |data|] == data;
      assert p[5 + |data|..] == Zeros(MaxRegisterData - |data|);
      Some(p)
  }

  /** Reading a register-write payload back: the 24-bit address and the data. */
  function ParseRegisterPayload(p: seq<byte>): Option<(int, seq<byte>)>
  {
    if |p| == 21 && p[0] == 0x04 && p[4] <= MaxRegisterData
    then Some((p[1] as int * 0x10000 + p[2] as int * 0x100 + p[3], p[5..5 + p[4]]))
    else None
  }

  /** The three address bytes are the address modulo 2^24. */
  lemma AddressBytesValue(address: int32)
    ensures var b := AddressBytes(address);
            b[0] as int * 0x10000 + b[1] as int * 0x100 + b[2] == address % 0x100_0000
  {
    var q := address / 0x100;
    var r0 := address % 0x100;
    assert address == q * 0x100 + r0;
    assert (address / 0x10000) == q / 0x100;
    var hi := q / 0x100;
    assert q == hi * 0x100 + q % 0x100;
    assert address == hi * 0x10000 + (q % 0x100) * 0x100 + r0;
    assert address % 0x100_0000 == (hi % 0x100) * 0x10000 + (q % 0x100) * 0x100 + r0;
  }

  /** Every register write the driver can send reads back as the address
      (modulo 2^24) and data it was given. */
  lemma RegisterRoundTrip(address: int32, data: seq<byte>)
    requires |data| <= MaxRegisterData
    ensures ParseRegisterPayload(RegisterPayload(address, data).value)
            == Some((address % 0x100_0000, data))
  {
    var p := RegisterPayload(address, data).value;
    AddressBytesValue(address);
    assert p[1..4] == AddressBytes(address);
  }

  /** A register-write frame. */
  function RegisterWrite(address: int32, data: seq<byte>): (r: Option<seq<byte>>)
    ensures r.Some? <==> |data| <= MaxRegisterData
    ensures r.Some? ==> |r.value| == 23
  {
    match RegisterPayload(address, data)
    case Some(p) => Some(Frame(CommandRegister, p))
    case None => None
  }

  /** What a frame asks the remote to do. */
  datatype Command =
    | Plain(command: byte, payload: seq<byte>)
    | WriteRegister(address: int, data: seq<byte>)

  /** Reading a frame back as a command; register writes are unpacked. */
  function Describe(m: seq<byte>): Option<Command>
  {
    match ParseFrame(m)
    case None => None
    case Some((command, payload)) =>
      if command == CommandRegister then
        match ParseRegisterPayload(payload)
        case Some((address, data)) => Some(WriteRegister(address, data))
        case None => None
      else Some(Plain(command, payload))
  }

  /** A register-write frame describes itself as that write. */
  lemma DescribeRegisterWrite(address: int32, data: seq<byte>)
    requires |data| <= MaxRegisterData
    ensures Describe(RegisterWrite(address, data).value) == Some(WriteRegister(address % 0x100_0000, data))
  {
    var p := RegisterPayload(address, data).value;
    FrameRoundTrip(CommandRegister, p, []);
    RegisterRoundTrip(address, data);
  }

  /** A non-register frame describes itself as that command. */
  lemma DescribePlain(command: byte, payload: seq<byte>)
    requires command != CommandRegister
    ensures Describe(Frame(command, payload)) == Some(Plain(command, payload))
  {
    FrameRoundTrip(command, payload, []);
  }

  /** The register write used by the initialisation sequences, whose data always fits. */
  function Write(address: int32, data: seq<byte>): seq<byte>
    requires |data| <= MaxRegisterData
  {
    RegisterWrite(address, data).value
  }

  /** The light byte `(byte) Math.pow(2, 4 + light)` for a light index of -1..3
      (-1 is "no light chosen"); it is 8, 16, 32, 64 or 128. */
  function LightBits(light: int): (b: byte)
    requires -1 <= light <= 3
    ensures SingleBit(b) && 8 <= b
  {
    if light == -1 then 0x08
    else if light == 0 then 0x10
    else if light == 1 then 0x20
    else if light == 2 then 0x40
    else 0x80
  }

  /** Each light index selects one distinct bit among bits 3..7. */
  lemma LightBitsOneHot(light: int, other: int)
    requires -1 <= light <= 3 && -1 <= other <= 3
    ensures SingleBit(LightBits(light)) && LightBits(light) >= 8
    ensures LightBits(light) == LightBits(other) ==> light == other
    ensures light == 3 || LightBits(light) * 2 == LightBits(light + 1)
  {
  }

  /** `setLight(i)`: an index outside 0..3 is ignored and sends nothing;
      otherwise the light becomes `i` and its bit is sent. */
  function SetLight(light: int, i: int): (r: (int, seq<seq<byte>>))
    ensures (0 <= i <= 3) ==> r.0 == i && |r.1| == 1 && ParseFrame(r.1[0]) == Some((CommandLight, [LightBits(i)]))
    ensures !(0 <= i <= 3) ==> r == (light, [])
  {
    if i < 0 || i > 3 then (light, [])
    else
      FrameRoundTrip(CommandLight, [LightBits(i)], []);
      (i, [Frame(CommandLight, [LightBits(i)])])
  }

  /** Vibration on: the light byte with bit 0 (the rumble bit) also set. */
  function VibrateOnByte(light: int): byte
    requires -1 <= light <= 3
  {
    Or(0x01, LightBits(light))
  }

  /** `vibrate`: rumble on with the current light, then (after the delay,
      not modelled) the light byte alone. */
  function Vibrate(light: int): (r: seq<seq<byte>>)
    requires -1 <= light <= 3
    ensures |r| == 2
  {
    [Frame(CommandLight, [VibrateOnByte(light)]), Frame(CommandLight, [LightBits(light)])]
  }

  /** The rumble byte keeps the light bit and adds bit 0; the closing frame
      restores exactly the frame `setLight` sends for the current light. */
  lemma {:induction false} VibrateBytes(light: int)
    requires -1 <= light <= 3
    ensures VibrateOnByte(light) == LightBits(light) + 1
    ensures Vibrate(light) == [Frame(CommandLight, [LightBits(light) + 1]), Frame(CommandLight, [LightBits(light)])]
    ensures 0 <= light ==> Vibrate(light)[1] == SetLight(light, light).1[0]
  {
    var l := LightBits(light) as bv8;
    ByteRoundTrip(LightBits(light));
    if light == -1 {
      assert (1 as bv8) | l == 9;
    } else if light == 0 {
      assert (1 as bv8) | l == 17;
    } else if light == 1 {
      assert (1 as bv8) | l == 33;
    } else if light == 2 {
      assert (1 as bv8) | l == 65;
    } else {
      assert (1 as bv8) | l == 129;
    }
  }

  /** The calibration read request: read 8 bytes from address 0x16. */
  function ReadCalibration(): (m: seq<byte>)
    ensures |m| == 8
    ensures ParseFrame(m) == Some((CommandReadCalibration, [0x00, 0x00, 0x00, 0x16, 0x00, 0x08]))
  {
    FrameRoundTrip(CommandReadCalibration, [0x00, 0x00, 0x00, 0x16, 0x00, 0x08], []);
    Frame(CommandReadCalibration, [0x00, 0x00, 0x00, 0x16, 0x00, 0x08])
  }

  /** The first sensitivity block written to the camera. */
  const SensitivityBlock1: seq<byte> := [0x00, 0x00, 0x00, 0x00, 0x00, 0x00, 0x90, 0x00, 0xC0]

  /** The camera initialisation shared by both enable operations. */
  function InitCommands(): (r: seq<seq<byte>>)
    ensures |r| == 7
  {
    [ Frame(CommandIR, [0x04]),
      Frame(CommandIR2, [0x04]),
      Write(0xb00030, [0x08]),
      Write(0xb00000, SensitivityBlock1),
      Write(0xb0001a, [0x40, 0x00]),
      Write(0xb00033, [3]),
      Write(0xb00030, [0x08]) ]
  }

  /** `enableIREvents`: reporting mode 0x33, then the camera initialisation. */
  function EnableIREvents(): (r: seq<seq<byte>>)
    ensures |r| == 8
  {
    [Frame(CommandReporting, [0x04, 0x33])] + InitCommands()
  }

  /** `enableExtensionEvents`: reporting mode 0x37, the camera initialisation,
      then the write of 0 to 0xa40040 that switches on the extension's encoding. */
  function EnableExtensionEvents(): (r: seq<seq<byte>>)
    ensures |r| == 9
  {
    [Frame(CommandReporting, [0x04, 0x37])] + InitCommands() + [Write(0xa40040, [0x00])]
  }

  /** The commands of the camera initialisation, in order. */
  const InitProgram: seq<Command> := [
    Plain(CommandIR, [0x04]),
    Plain(CommandIR2, [0x04]),
    WriteRegister(0xb00030, [0x08]),
    WriteRegister(0xb00000, SensitivityBlock1),
    WriteRegister(0xb0001a, [0x40, 0x00]),
    WriteRegister(0xb00033, [3]),
    WriteRegister(0xb00030, [0x08])
  ]

  lemma {:induction false} InitCommandsProgram()
    ensures forall k :: 0 <= k < 7 ==> Describe(InitCommands()[k]) == Some(InitProgram[k])
  {
    DescribePlain(CommandIR, [0x04]);
    DescribePlain(CommandIR2, [0x04]);
    DescribeRegisterWrite(0xb00030, [0x08]);
    DescribeRegisterWrite(0xb00000, SensitivityBlock1);
    DescribeRegisterWrite(0xb0001a, [0x40, 0x00]);
    DescribeRegisterWrite(0xb00033, [3]);
  }

  /** Enabling IR sends, in order: reporting mode 0x33, IR enable, IR enable 2,
      and the five camera register writes. */
  lemma {:induction false} EnableIRProgram()
    ensures |EnableIREvents()| == 1 + |InitProgram|
    ensures Describe(EnableIREvents()[0]) == Some(Plain(CommandReporting, [0x04, 0x33]))
    ensures forall k :: 1 <= k < 8 ==> Describe(EnableIREvents()[k]) == Some(InitProgram[k - 1])
  {
    InitCommandsProgram();
    DescribePlain(CommandReporting, [0x04, 0x33]);
  }

  /** Enabling the extension sends the same sequence with reporting mode 0x37,
      followed by the write of 0 to register 0xa40040. */
  lemma {:induction false} EnableExtensionProgram()
    ensures EnableExtensionEvents()[1..8] == EnableIREvents()[1..]
    ensures Describe(EnableExtensionEvents()[0]) == Some(Plain(CommandReporting, [0x04, 0x37]))
    ensures Describe(EnableExtensionEvents()[8]) == Some(WriteRegister(0xa40040, [0x00]))
  {
    DescribePlain(CommandReporting, [0x04, 0x37]);
    DescribeRegisterWrite(0xa40040, [0x00]);
  }
}

=== FILE: events.dfy ===
/** The events the decoder produces, and the remote's button state tracker. */
module Events {
  import opened Sensors

  datatype Button = A | B | One | Two | Z | C

  /** Which accelerometer an acceleration event comes from. */
  datatype Source = WiiRemote | Nunchuk

  datatype Event =
    | ButtonEvent(button: Button, wasPress: bool)
    | AccelEvent(source: Source, accel: Accel)
    | IREvent(point: IRPoint)
    | JoystickEvent(jx: int, jy: int)
}

/** Per-button "is pressed" state.  A button event is produced only when the
    observed state differs from the stored one, so listeners see transitions
    and not repeated samples. */
module ButtonState {
  import opened Bytes
  import opened Events

  /** The remote's A, B, 1 and 2 and the nunchuk's Z and C; all start released. */
  datatype Buttons = Buttons(a: bool, b: bool, one: bool, two: bool, z: bool, c: bool)

  const Released := Buttons(false, false, false, false, false, false)

  function Pressed(s: Buttons, id: Button): bool
  {
    match id
    case A => s.a
    case B => s.b
    case One => s.one
    case Two => s.two
    case Z => s.z
    case C => s.c
  }

  /** The remote buttons, in the order the decoder examines them. */
  const RemoteOrder := [A, B, One, Two]

  /** The nunchuk buttons, in the order the decoder examines them. */
  const ExtensionOrder := [Z, C]

  /** Reference definition: one event for each button of `ids`, in that order,
      whose state differs between `before` and `after`, carrying the new state. */
  function Transitions(before: Buttons, after: Buttons, ids: seq<Button>): seq<Event>
  {
    if ids == [] then [] else Change(before, after, ids[0]) + Transitions(before, after, ids[1..])
  }

  /** The event for one button, if its state differs between `before` and `after`. */
  function Change(before: Buttons, after: Buttons, id: Button): seq<Event>
  {
    if Pressed(before, id) != Pressed(after, id) then [ButtonEvent(id, Pressed(after, id))] else []
  }

  /** Flip one stored state when `flip` holds, reporting the new state. */
  function Toggle(id: Button, state: bool, flip: bool): (r: (bool, seq<Event>))
  {
    if flip then (!state, [ButtonEvent(id, !state)]) else (state, [])
  }

  /** The remote's button word `(b0 << 8) | b1`, read from two signed bytes:
      when b1 is negative its sign extension sets every bit above bit 7. */
  function ButtonWord(b0: byte, b1: byte): (w: int)
    ensures -32768 <= w < 32768
    ensures w % 256 == b1
    ensures (w / 256) % 256 == (if b1 < 128 then b0 else 255)
    ensures (w < 0) == (b0 >= 128 || b1 >= 128)
  {
    if Signed(b1) < 0 then Signed(b1) else Signed(b0) * 256 + b1
  }

  /** Adding 256 does not change the low byte's bits. */
  lemma AddByteKeepsLowBits(u: int, mask: int)
    requires mask == 1 || mask == 2 || mask == 4 || mask == 8
    ensures Clear(u + 256, mask) == Clear(u, mask)
  {
    var q := u / mask;
    assert (u + 256) / mask == q + 256 / mask by {
      if mask == 1 {
      } else if mask == 2 {
        assert (u + 256) / 2 == u / 2 + 128;
      } else if mask == 4 {
        assert (u + 256) / 4 == u / 4 + 64;
      } else {
        assert (u + 256) / 8 == u / 8 + 32;
      }
    }
    assert (256 / mask) % 2 == 0;
    assert (q + 256 / mask) % 2 == q % 2;
  }

  /** Adding a multiple of 256 does not change the low byte's bits. */
  lemma {:induction false} LowBitsIgnoreHighPart(v: int, k: int, mask: int)
    requires mask == 1 || mask == 2 || mask == 4 || mask == 8
    ensures Clear(v + 256 * k, mask) == Clear(v, mask)
    decreases if k < 0 then -k else k
  {
    if k > 0 {
      LowBitsIgnoreHighPart(v, k - 1, mask);
      AddByteKeepsLowBits(v + 256 * (k - 1), mask);
      assert v + 256 * (k - 1) + 256 == v + 256 * k;
    } else if k < 0 {
      LowBitsIgnoreHighPart(v, k + 1, mask);
      AddByteKeepsLowBits(v + 256 * k, mask);
      assert v + 256 * k + 256 == v + 256 * (k + 1);
    }
  }

  /** The low four bits of the button word are those of the second byte. */
  lemma {:induction false} ButtonWordLowBits(b0: byte, b1: byte, mask: int)
    requires mask == 1 || mask == 2 || mask == 4 || mask == 8
    ensures Clear(ButtonWord(b0, b1), mask) == Clear(b1, mask)
  {
    var k := if Signed(b1) < 0 then -1 else Signed(b0);
    assert ButtonWord(b0, b1) == b1 + 256 * k;
    LowBitsIgnoreHighPart(b1, k, mask);
  }

  /** The remote buttons from the word: A is read through mask 8, B through 4,
      1 through 2 and 2 through 1; a stored state flips when "bit clear" equals it. */
  function UpdateRemote(s: Buttons, w: int): (r: (Buttons, seq<Event>))
    ensures r.0.a == !Clear(w, 8) && r.0.b == !Clear(w, 4)
    ensures r.0.one == !Clear(w, 2) && r.0.two == !Clear(w, 1)
    ensures r.0.z == s.z && r.0.c == s.c
  {
    var (a, ea) := Toggle(A, s.a, Clear(w, 8) == s.a);
    var (b, eb) := Toggle(B, s.b, Clear(w, 4) == s.b);
    var (one, e1) := Toggle(One, s.one, Clear(w, 2) == s.one);
    var (two, e2) := Toggle(Two, s.two, Clear(w, 1) == s.two);
    (s.(a := a, b := b, one := one, two := two), ea + eb + e1 + e2)
  }

  lemma {:induction false} RemoteTransitions(s: Buttons, s': Buttons)
    ensures Transitions(s, s', RemoteOrder)
            == Change(s, s', A) + Change(s, s', B) + Change(s, s', One) + Change(s, s', Two)
  {
    assert RemoteOrder[1..] == [B, One, Two];
    assert [B, One, Two][1..] == [One, Two];
    assert [One, Two][1..] == [Two];
    assert [Two][1..] == [];
    var cA, cB, c1, c2 := Change(s, s', A), Change(s, s', B), Change(s, s', One), Change(s, s', Two);
    assert Transitions(s, s', [Two]) == c2 + [] == c2;
    assert Transitions(s, s', [One, Two]) == c1 + c2;
    assert Transitions(s, s', [B, One, Two]) == cB + (c1 + c2);
    assert Transitions(s, s', RemoteOrder) == cA + (cB + (c1 + c2));
    assert cA + (cB + (c1 + c2)) == cA + cB + c1 + c2;
  }

  /** The remote update reports one event per changed button, in the order
      A, B, 1, 2, each carrying the button's new state. */
  lemma {:induction false} RemoteEvents(s: Buttons, w: int)
    ensures UpdateRemote(s, w).1 == Transitions(s, UpdateRemote(s, w).0, RemoteOrder)
  {
    var s' := UpdateRemote(s, w).0;
    RemoteTransitions(s, s');
  }

  /** Seeing the same word twice reports nothing the second time. */
  lemma RemoteSteady(s: Buttons, w: int)
    ensures UpdateRemote(UpdateRemote(s, w).0, w) == (UpdateRemote(s, w).0, [])
  {
  }

  /** An update reports nothing exactly when no remote button changes. */
  lemma RemoteQuietIffUnchanged(s: Buttons, w: int)
    ensures UpdateRemote(s, w).1 == [] <==> UpdateRemote(s, w).0 == s
  {
    var s' := UpdateRemote(s, w).0;
    if s' != s {
      assert s'.a != s.a || s'.b != s.b || s'.one != s.one || s'.two != s.two;
    }
  }
}

=== FILE: extension.dfy ===
/** The extension (nunchuk) channel: a fixed byte remap undone before reading
    the six-byte payload, then the nunchuk accelerometer, joystick and the
    Z and C buttons. */
module Extension {
  import opened Bytes
  import opened Sensors
  import opened Events
  import opened ButtonState

  /** The byte remap applied in place to every payload byte: `(v ^ 0x17) + 0x17`,
      truncated back to a byte.  The sign extension of `v` only touches bits
      above the low eight, which the truncation drops. */
  function Decrypt(v: byte): (d: byte)
    ensures Encrypt(d) == v
  {
    var x := v as bv8;
    var e := (x ^ 0x17) + 0x17;
    BitsRoundTrip(e);
    BvEncryptDecrypt(x);
    ByteRoundTrip(v);
    assert Encrypt(e as int) == ((e - 0x17) ^ 0x17) as int;
    e as int
  }

  /** The remap a device applies so that `Decrypt` recovers its data. */
  function Encrypt(d: byte): byte
  {
    (((d as bv8) - 0x17) ^ 0x17) as int
  }

  lemma BvDecryptEncrypt(x: bv8)
    ensures (((x - 0x17) ^ 0x17) ^ 0x17) + 0x17 == x
  {
  }

  lemma BvEncryptDecrypt(x: bv8)
    ensures (((x ^ 0x17) + 0x17) - 0x17) ^ 0x17 == x
  {
  }

  /** Every byte value is produced by `Decrypt` from exactly one input: `Encrypt` is its inverse. */
  lemma DecryptEncrypt(d: byte)
    ensures Decrypt(Encrypt(d)) == d
  {
    var x := d as bv8;
    var e := (x - 0x17) ^ 0x17;
    BitsRoundTrip(e);
    BvDecryptEncrypt(x);
    ByteRoundTrip(d);
    var ei: byte := e as int;
    assert Encrypt(d) == ei;
    assert Decrypt(ei) == ((e ^ 0x17) + 0x17) as int;
  }

  /** The remap is a bijection on bytes. */
  lemma DecryptInjective(v: byte, v': byte)
    ensures Decrypt(v) == Decrypt(v') ==> v == v'
  {
  }

  /** The remap of a few literal bytes; applying it twice is not the identity. */
  lemma DecryptExamples()
    ensures Decrypt(0x00) == 0x2E && Decrypt(0x17) == 0x17
    ensures Decrypt(Decrypt(0x00)) != 0x00
  {
  }

  /** The payload after the in-place remap. */
  function DecryptAll(raw: seq<byte>): (d: seq<byte>)
    ensures |d| == |raw|
    ensures forall k :: 0 <= k < |raw| ==> d[k] == Decrypt(raw[k])
  {
    seq(|raw|, k requires 0 <= k < |raw| => Decrypt(raw[k]))
  }

  function EncryptAll(d: seq<byte>): (raw: seq<byte>)
    ensures |raw| == |d|
    ensures forall k :: 0 <= k < |d| ==> raw[k] == Encrypt(d[k])
  {
    seq(|d|, k requires 0 <= k < |d| => Encrypt(d[k]))
  }

  /** Different payloads stay different after the remap, so no information is lost. */
  lemma DecryptAllInjective(raw: seq<byte>, raw': seq<byte>)
    ensures DecryptAll(raw) == DecryptAll(raw') ==> raw == raw'
  {
    if DecryptAll(raw) == DecryptAll(raw') {
      forall k | 0 <= k < |raw|
        ensures raw[k] == raw'[k]
      {
        assert Encrypt(DecryptAll(raw)[k]) == raw[k];
        assert Encrypt(DecryptAll(raw')[k]) == raw'[k];
      }
    }
  }

  lemma DecryptAllEncryptAll(d: seq<byte>)
    ensures DecryptAll(EncryptAll(d)) == d
  {
    forall k | 0 <= k < |d|
      ensures DecryptAll(EncryptAll(d))[k] == d[k]
    {
      DecryptEncrypt(d[k]);
    }
  }

  /** Joystick centre: each axis byte minus 130. */
  const JoystickCentre := 130

  /** The six-byte extension payload: after the remap, the nunchuk acceleration
      (the remote's accelerometer layout read from bytes 0..4), the joystick
      `(d0 - 130, d1 - 130)`, then Z and C, which are pressed when bit 0 and
      bit 1 of byte 5 are CLEAR and are reported only on change. */
  function DecodeExtension(s: Buttons, raw: seq<byte>): (r: (Buttons, seq<Event>))
    requires |raw| == 6
    ensures r.0.z == Clear(Decrypt(raw[5]), 1) && r.0.c == Clear(Decrypt(raw[5]), 2)
    ensures r.0.a == s.a && r.0.b == s.b && r.0.one == s.one && r.0.two == s.two
    ensures |r.1| >= 2 && r.1[0] == AccelEvent(Nunchuk, DecodeAccel(DecryptAll(raw)[..5]))
    ensures r.1[1] == JoystickEvent(Decrypt(raw[0]) - 130, Decrypt(raw[1]) - 130)
    ensures -130 <= r.1[1].jx <= 125 && -130 <= r.1[1].jy <= 125
    ensures r.1[2..] == Change(s, r.0, Z) + Change(s, r.0, C)
  {
    var d := DecryptAll(raw);
    assert d[0] == Decrypt(raw[0]) && d[1] == Decrypt(raw[1]) && d[5] == Decrypt(raw[5]);
    var nunchuk := AccelEvent(Nunchuk, DecodeAccel(d[..5]));
    var joystick := JoystickEvent(d[0] - JoystickCentre, d[1] - JoystickCentre);
    var (z, ez) := Toggle(Z, s.z, Clear(d[5], 1) != s.z);
    var (c, ec) := Toggle(C, s.c, Clear(d[5], 2) != s.c);
    assert [nunchuk, joystick] + ez + ec == [nunchuk, joystick] + (ez + ec);
    (s.(z := z, c := c), [nunchuk, joystick] + ez + ec)
  }

  lemma {:induction false} ExtensionTransitions(s: Buttons, s': Buttons)
    ensures Transitions(s, s', ExtensionOrder) == Change(s, s', Z) + Change(s, s', C)
  {
    assert ExtensionOrder[1..] == [C];
    assert [C][1..] == [];
    assert Transitions(s, s', [C]) == Change(s, s', C) + [] == Change(s, s', C);
  }

  /** Z and C are reported in that order, one event per button that changed. */
  lemma ExtensionButtonEvents(s: Buttons, raw: seq<byte>)
    requires |raw| == 6
    ensures DecodeExtension(s, raw).1[2..] == Transitions(s, DecodeExtension(s, raw).0, ExtensionOrder)
  {
    ExtensionTransitions(s, DecodeExtension(s, raw).0);
  }

  /** Seeing the same payload twice reports no button event the second time;
      the nunchuk acceleration and joystick events are reported every time. */
  lemma ExtensionSteady(s: Buttons, raw: seq<byte>)
    requires |raw| == 6
    ensures var s' := DecodeExtension(s, raw).0;
            DecodeExtension(s', raw).0 == s' && |DecodeExtension(s', raw).1| == 2
  {
    var s' := DecodeExtension(s, raw).0;
    var r := DecodeExtension(s', raw);
    assert r.0 == s';
    assert Change(s', s', Z) == [] && Change(s', s', C) == [];
    assert r.1[2..] == [];
  }

  /** A device that sends the remapped joystick position `(jx, jy)` has it
      reported back exactly. */
  lemma JoystickRoundTrip(s: Buttons, d: seq<byte>, jx: int, jy: int)
    requires |d| == 6 && -130 <= jx <= 125 && -130 <= jy <= 125
    requires d[0] == jx + 130 && d[1] == jy + 130
    ensures DecodeExtension(s, EncryptAll(d)).1[1] == JoystickEvent(jx, jy)
  {
    DecryptAllEncryptAll(d);
  }
}

=== FILE: legacy.dfy ===
/** The older driver variant.  It decodes only report types 0x21, 0x30 and
    0x33, reports the whole button word as one event, suppressed when it
    equals the last one reported, and has no extension support. */
module Legacy {
  import opened Bytes
  import opened Sensors
  import CalibrationStore
  import Commands
  import Listeners
  import Session

  datatype Event =
    | ButtonEvent(word: int)
    | AccelEvent(accel: Accel)
    | IREvent(point: IRPoint)

  /** `last` is the last button event reported; there is none at first. */
  datatype State<L> = State(
    cal: CalibrationStore.Calibration,
    last: Option<int>,
    listeners: seq<L>,
    light: int)

  function Open<L>(): (r: (State<L>, seq<seq<byte>>))
    ensures r.0.last == None && r.0.light == -1 && r.0.listeners == []
    ensures r.0.cal == CalibrationStore.Uncalibrated
    ensures r.1 == [Commands.ReadCalibration()]
  {
    (State(CalibrationStore.Uncalibrated, None, [], -1), [Commands.ReadCalibration()])
  }

  /** The button events' equality is not part of this model, so it is a
      parameter `same`; comparing with "no event yet" is false. */
  function ButtonDedup(last: Option<int>, w: int, same: (int, int) -> bool): (r: (Option<int>, seq<Event>))
    ensures r.1 != [] <==> last.None? || !same(w, last.value)
    ensures r.1 != [] ==> r == (Some(w), [ButtonEvent(w)])
    ensures r.1 == [] ==> r.0 == last
  {
    if last.Some? && same(w, last.value) then (last, []) else (Some(w), [ButtonEvent(w)])
  }

  /** With a reflexive equality, the same word twice is reported once. */
  lemma DedupTwice(last: Option<int>, w: int, same: (int, int) -> bool)
    requires forall v :: same(v, v)
    ensures var (last', es) := ButtonDedup(last, w, same);
            ButtonDedup(last', w, same) == (last', [])
  {
    var last' := ButtonDedup(last, w, same).0;
    assert last'.Some?;
    if last' != Some(w) {
      assert same(w, last'.value);
    } else {
      assert same(w, w);
    }
  }

  const ReadData: byte := 0x21
  const ButtonsOnly: byte := 0x30
  const ButtonsAccelIR: byte := 0x33

  /** The IR points as events of this driver; its `Event` type differs from
      the current driver's, so the conversion is defined here again. */
  function IREvents(ps: seq<IRPoint>): (es: seq<Event>)
    ensures |es| == |ps|
    ensures forall k :: 0 <= k < |ps| ==> es[k] == IREvent(ps[k])
  {
    seq(|ps|, k requires 0 <= k < |ps| => IREvent(ps[k]))
  }

  /** One pass of the older receive loop. */
  function Step<L>(s: State<L>, f: Session.Frame, same: (int, int) -> bool): (r: (State<L>, seq<Event>))
    ensures r.0.listeners == s.listeners && r.0.light == s.light
    ensures f[1] != ReadData ==> r.0.cal == s.cal
    ensures f[1] != ButtonsOnly && f[1] != ButtonsAccelIR ==> r.0.last == s.last && r.1 == []
    ensures f[1] != ReadData && f[1] != ButtonsOnly && f[1] != ButtonsAccelIR ==> r == (s, [])
  {
    var w := Session.ButtonWordOf(f);
    if f[1] == ReadData then
      (s.(cal := CalibrationStore.Parse(f[7..15])), [])
    else if f[1] == ButtonsOnly then
      var (last, es) := ButtonDedup(s.last, w, same);
      (s.(last := last), es)
    else if f[1] == ButtonsAccelIR then
      var (last, es) := ButtonDedup(s.last, w, same);
      (s.(last := last), es + [AccelEvent(DecodeAccel(f[2..7]))] + IREvents(DecodeIR(f[7..19])))
    else
      (s, [])
  }

  /** The extension report 0x37 is not decoded by this variant. */
  lemma ExtensionReportIgnored<L>(s: State<L>, f: Session.Frame, same: (int, int) -> bool)
    requires f[1] == 0x37
    ensures Step(s, f, same) == (s, [])
  {
  }

  /** Report 0x21 stores the 10-bit calibration parsed from bytes 7..14. */
  lemma CalibrationReport<L>(s: State<L>, f: Session.Frame, same: (int, int) -> bool)
    requires f[1] == ReadData
    ensures var (s', es) := Step(s, f, same);
            es == [] && s' == s.(cal := s'.cal) && CalibrationStore.Valid(s'.cal)
            && s'.cal == CalibrationStore.Parse(f[7..15])
  {
  }

  /** Report 0x30 reports the button word exactly when it is new, and then
      records it as the last one reported; otherwise nothing changes.  With a
      reflexive `same`, the same report a second time reports nothing. */
  lemma ButtonsOnlyReport<L>(s: State<L>, f: Session.Frame, same: (int, int) -> bool)
    requires f[1] == ButtonsOnly
    ensures var (s', es) := Step(s, f, same);
            var w := Session.ButtonWordOf(f);
            && (es != [] <==> s.last.None? || !same(w, s.last.value))
            && (es != [] ==> s' == s.(last := Some(w)) && es == [ButtonEvent(w)])
            && (es == [] ==> s' == s)
    ensures (forall v :: same(v, v)) ==> Step(Step(s, f, same).0, f, same) == (Step(s, f, same).0, [])
  {
    if forall v :: same(v, v) {
      DedupTwice(s.last, Session.ButtonWordOf(f), same);
    }
  }

  /** Report 0x33 reports the button word exactly when it is new, then one raw
      acceleration from bytes 2..6, then the IR points of bytes 7..18. */
  lemma ButtonsAccelIRReport<L>(s: State<L>, f: Session.Frame, same: (int, int) -> bool)
    requires f[1] == ButtonsAccelIR
    ensures var (s', es) := Step(s, f, same);
            var n := |es| - 1 - |DecodeIR(f[7..19])|;
            var w := Session.ButtonWordOf(f);
            && (n == 0 || n == 1)
            && (n == 1 <==> s.last.None? || !same(w, s.last.value))
            && (n == 1 ==> es[0] == ButtonEvent(w))
            && s' == s.(last := if n == 1 then Some(w) else s.last)
            && es[n] == AccelEvent(DecodeAccel(f[2..7])) && Reportable(es[n].accel)
            && es[n + 1..] == IREvents(DecodeIR(f[7..19]))
  {
    var ps := DecodeIR(f[7..19]);
    var es := Step(s, f, same).1;
    var n := |es| - 1 - |ps|;
    DecodedIsReportable(f[2..7]);
    assert es[n + 1..] == IREvents(ps);
  }

  /** The listener callbacks of this variant: one for any button change. */
  datatype Handler = ButtonChange | IRInput | AccelInput

  function Route(e: Event): (h: Handler)
    ensures h == ButtonChange <==> e.ButtonEvent?
    ensures h == IRInput <==> e.IREvent?
    ensures h == AccelInput <==> e.AccelEvent?
  {
    match e
    case ButtonEvent(_) => ButtonChange
    case IREvent(_) => IRInput
    case AccelEvent(_) => AccelInput
  }

  function Deliver<L>(s: State<L>, f: Session.Frame, same: (int, int) -> bool)
    : (r: (State<L>, seq<Listeners.Delivery<L, Event, Handler>>))
    ensures r.0 == Step(s, f, same).0
    ensures |r.1| == |s.listeners| * |Step(s, f, same).1|
    ensures forall k :: 0 <= k < |r.1| ==> r.1[k].handler == Route(r.1[k].event) && r.1[k].listener in s.listeners
  {
    var (s', es) := Step(s, f, same);
    (s', Listeners.DispatchAll(s.listeners, es, Route))
  }

  /** Callback `i` of event `j` comes at position `j * |listeners| + i`: each
      event reaches the whole list before the next one is dispatched. */
  lemma DeliverAt<L>(s: State<L>, f: Session.Frame, same: (int, int) -> bool, j: nat, i: nat)
    requires j < |Step(s, f, same).1| && i < |s.listeners|
    ensures 0 <= j * |s.listeners| + i < |Deliver(s, f, same).1|
            && Deliver(s, f, same).1[j * |s.listeners| + i]
            == Listeners.Delivery(s.listeners[i], Route(Step(s, f, same).1[j]), Step(s, f, same).1[j])
  {
    Listeners.DispatchAllAt(s.listeners, Step(s, f, same).1, Route, j, i);
  }

  /** Each registered listener is called once per event, in decoder order. */
  lemma DeliverToEveryListener<L>(s: State<L>, f: Session.Frame, same: (int, int) -> bool, l: L)
    requires Listeners.NoDuplicates(s.listeners)
    ensures Listeners.Received(Deliver(s, f, same).1, l) == if l in s.listeners then Step(s, f, same).1 else []
  {
    Listeners.EveryListenerSeesEveryEvent(s.listeners, Step(s, f, same).1, Route, l);
  }

  function AddListener<L(==)>(s: State<L>, l: L): (r: State<L>)
    ensures l in r.listeners
    ensures r == s.(listeners := r.listeners)
    ensures forall k :: 0 <= k < |s.listeners| ==> s.listeners[k] in r.listeners
    ensures forall k :: 0 <= k < |r.listeners| ==> r.listeners[k] in s.listeners || r.listeners[k] == l
    ensures Listeners.NoDuplicates(s.listeners) ==> Listeners.NoDuplicates(r.listeners)
    ensures l in s.listeners ==> r == s
    ensures l !in s.listeners ==> r.listeners == s.listeners + [l]
  {
    s.(listeners := Listeners.Add(s.listeners, l))
  }

  function SetLight<L>(s: State<L>, i: int): (r: (State<L>, seq<seq<byte>>))
    ensures r.0 == s.(light := r.0.light)
    ensures (0 <= i <= 3) == (r.0.light == i && |r.1| == 1)
    ensures !(0 <= i <= 3) ==> r == (s, [])
    ensures 0 <= i <= 3 ==> r.1 == Commands.SetLight(s.light, i).1
  {
    var (light, frames) := Commands.SetLight(s.light, i);
    (s.(light := light), frames)
  }

  /** `enableIREvents` of this variant, with the camera initialisation written out inline. */
  function EnableIREvents(): (r: seq<seq<byte>>)
    ensures r == Commands.EnableIREvents()
  {
    [ Commands.Frame(Commands.CommandReporting, [0x04, 0x33]),
      Commands.Frame(Commands.CommandIR, [0x04]),
      Commands.Frame(Commands.CommandIR2, [0x04]),
      Commands.Write(0xb00030, [0x08]),
      Commands.Write(0xb00000, [0x00, 0x00, 0x00, 0x00, 0x00, 0x00, 0x90, 0x00, 0xC0]),
      Commands.Write(0xb0001a, [0x40, 0x00]),
      Commands.Write(0xb00033, [3]),
      Commands.Write(0xb00030, [0x08]) ]
  }
}

=== FILE: listeners.dfy ===
/** The listener list and the fan-out of one event to every listener, in list
    order.  Which handler a listener is called on depends only on the event;
    each driver variant supplies that routing. */
module Listeners {

  predicate NoDuplicates<L(==)>(ls: seq<L>)
  {
    forall i, j :: 0 <= i < j < |ls| ==> ls[i] != ls[j]
  }

  /** `addListener`: appended unless already present. */
  function Add<L(==)>(ls: seq<L>, l: L): (r: seq<L>)
    ensures l in r
    ensures forall k :: 0 <= k < |r| ==> r[k] in ls || r[k] == l
    ensures forall k :: 0 <= k < |ls| ==> ls[k] in r
    ensures l in ls ==> r == ls
    ensures l !in ls ==> r == ls + [l]
    ensures NoDuplicates(ls) ==> NoDuplicates(r)
  {
    if l in ls then ls else ls + [l]
  }

  /** Adding a listener twice is the same as adding it once. */
  lemma AddIdempotent<L>(ls: seq<L>, l: L)
    ensures Add(Add(ls, l), l) == Add(ls, l)
  {
  }

  /** The position of the first occurrence of `l`. */
  function FirstIndex<L(==)>(ls: seq<L>, l: L): (k: nat)
    requires l in ls
    ensures k < |ls| && ls[k] == l && l !in ls[..k]
  {
    if ls[0] == l then 0 else 1 + FirstIndex(ls[1..], l)
  }

  /** `removeListener`: the first occurrence, if any, is removed. */
  function Remove<L(==)>(ls: seq<L>, l: L): (r: seq<L>)
    ensures l !in ls ==> r == ls
    ensures l in ls ==> |r| == |ls| - 1
    ensures forall k :: 0 <= k < |r| ==> r[k] in ls
    ensures forall k :: 0 <= k < |ls| && ls[k] != l ==> ls[k] in r
    ensures NoDuplicates(ls) ==> NoDuplicates(r) && l !in r
  {
    if ls == [] then []
    else if ls[0] == l then ls[1..]
    else [ls[0]] + Remove(ls[1..], l)
  }

  /** Exactly the first occurrence is cut out; the others keep their order. */
  lemma {:induction false} RemoveFirstOccurrence<L>(ls: seq<L>, l: L)
    requires l in ls
    ensures var k := FirstIndex(ls, l);
            Remove(ls, l) == ls[..k] + ls[k + 1..]
  {
    var k := FirstIndex(ls, l);
    if ls[0] == l {
      assert k == 0;
    } else {
      var k' := FirstIndex(ls[1..], l);
      RemoveFirstOccurrence(ls[1..], l);
      assert k == k' + 1;
      CutPastHead(ls, k');
    }
  }

  /** Cutting out position `k + 1` of a list is cutting out position `k` of its tail. */
  lemma CutPastHead<L>(ls: seq<L>, k: nat)
    requires k + 1 < |ls|
    ensures ls[..k + 1] + ls[k + 2..] == [ls[0]] + (ls[1..][..k] + ls[1..][k + 1..])
  {
    assert ls[..k + 1] == [ls[0]] + ls[1..][..k];
    assert ls[k + 2..] == ls[1..][k + 1..];
  }

  /** Removing a listener just added restores the list it was added to. */
  lemma {:induction false} RemoveAdd<L>(ls: seq<L>, l: L)
    requires l !in ls
    ensures Remove(Add(ls, l), l) == ls
  {
    if ls != [] {
      assert (ls + [l])[0] == ls[0];
      assert (ls + [l])[1..] == ls[1..] + [l];
      RemoveAdd(ls[1..], l);
    }
  }

  /** One handler call. */
  datatype Delivery<L, E, H> = Delivery(listener: L, handler: H, event: E)

  /** `dispatchEvent`: every listener, in list order, is handed the event on
      the handler `route` picks for it. */
  function Dispatch<L, E, H>(ls: seq<L>, e: E, route: E -> H): (r: seq<Delivery<L, E, H>>)
    ensures |r| == |ls|
    ensures forall i :: 0 <= i < |ls| ==> r[i] == Delivery(ls[i], route(e), e)
  {
    if ls == [] then [] else [Delivery(ls[0], route(e), e)] + Dispatch(ls[1..], e, route)
  }

  /** Dispatching a sequence of events, one after another. */
  function DispatchAll<L, E, H>(ls: seq<L>, es: seq<E>, route: E -> H): (r: seq<Delivery<L, E, H>>)
    ensures |r| == |ls| * |es|
    ensures forall k :: 0 <= k < |r| ==> r[k].handler == route(r[k].event) && r[k].listener in ls
  {
    if es == [] then []
    else
      assert |ls| * |es| == |ls| + |ls| * |es[1..]|;
      Dispatch(ls, es[0], route) + DispatchAll(ls, es[1..], route)
  }

  /** Event `j` is handed to listener `i` at position `j * |ls| + i`: every
      event goes to the whole list, in list order, before the next one. */
  lemma {:induction false} DispatchAllAt<L, E, H>(ls: seq<L>, es: seq<E>, route: E -> H, j: nat, i: nat)
    requires j < |es| && i < |ls|
    ensures 0 <= j * |ls| + i < |DispatchAll(ls, es, route)|
            && DispatchAll(ls, es, route)[j * |ls| + i] == Delivery(ls[i], route(es[j]), es[j])
  {
    var head, rest := Dispatch(ls, es[0], route), DispatchAll(ls, es[1..], route);
    assert DispatchAll(ls, es, route) == head + rest;
    assert |head| == |ls|;
    if j == 0 {
      assert (head + rest)[i] == head[i];
    } else {
      DispatchAllAt(ls, es[1..], route, j - 1, i);
      var k := (j - 1) * |ls| + i;
      assert k < |rest|;
      assert k + |ls| == j * |ls| + i;
      assert (head + rest)[k + |ls|] == rest[k];
      assert es[1..][j - 1] == es[j];
    }
  }

  /** The events handed to listener `l`, in the order it receives them. */
  function Received<L(==), E, H>(ds: seq<Delivery<L, E, H>>, l: L): seq<E>
  {
    if ds == [] then []
    else (if ds[0].listener == l then [ds[0].event] else []) + Received(ds[1..], l)
  }

  lemma {:induction false} ReceivedAppend<L, E, H>(ds: seq<Delivery<L, E, H>>, ds': seq<Delivery<L, E, H>>, l: L)
    ensures Received(ds + ds', l) == Received(ds, l) + Received(ds', l)
  {
    if ds == [] {
      assert ds + ds' == ds';
    } else {
      assert (ds + ds')[0] == ds[0];
      assert (ds + ds')[1..] == ds[1..] + ds';
      ReceivedAppend(ds[1..], ds', l);
      var head := if ds[0].listener == l then [ds[0].event] else [];
      assert head + (Received(ds[1..], l) + Received(ds', l)) == head + Received(ds[1..], l) + Received(ds', l);
    }
  }

  /** One dispatch hands the event to a registered listener exactly once and
      to any other listener not at all. */
  lemma {:induction false} ReceivedDispatch<L, E, H>(ls: seq<L>, e: E, route: E -> H, l: L)
    requires NoDuplicates(ls)
    ensures Received(Dispatch(ls, e, route), l) == if l in ls then [e] else []
  {
    if ls != [] {
      var d := Dispatch(ls, e, route);
      assert d[1..] == Dispatch(ls[1..], e, route);
      assert NoDuplicates(ls[1..]);
      ReceivedDispatch(ls[1..], e, route, l);
      if ls[0] == l {
        assert l !in ls[1..];
      } else {
        assert l in ls <==> l in ls[1..];
      }
    }
  }

  /** Every registered listener receives every event exactly once, in the
      order the events were produced; an unregistered one receives nothing. */
  lemma {:induction false} EveryListenerSeesEveryEvent<L, E, H>(ls: seq<L>, es: seq<E>, route: E -> H, l: L)
    requires NoDuplicates(ls)
    ensures Received(DispatchAll(ls, es, route), l) == if l in ls then es else []
  {
    if es != [] {
      ReceivedAppend(Dispatch(ls, es[0], route), DispatchAll(ls, es[1..], route), l);
      ReceivedDispatch(ls, es[0], route, l);
      EveryListenerSeesEveryEvent(ls, es[1..], route, l);
      assert es == [es[0]] + es[1..];
    }
  }
}

=== FILE: sensors.dfy ===
/** Decoding of the two sensor blocks the remote reports: the accelerometer
    (five bytes, three 10-bit readings) and the infra-red camera (twelve bytes,
    up to four tracked points). */
module Sensors {
  import opened Bytes

  /** A raw accelerometer sample; the driver's floating-point normalisation
      against the calibration is not modelled, so the raw readings are kept. */
  datatype Accel = Accel(x: int, y: int, z: int)

  /** One tracked infra-red point; `index` is the byte offset of its slot. */
  datatype IRPoint = IRPoint(index: int, x: int, y: int, size: int)

  /** "No object detected" in either coordinate of an IR slot. */
  const Sentinel := 1023

  /** The accelerometer block `b0 b1 b2 b3 b4`: the high eight bits of x, y, z
      are b2, b3, b4; x's low bits are `(b0 & 0x60) >> 5`, y's are
      `(b1 & 0x60) >> 5` and z's are `(b1 & 0x80) >> 6`. */
  function DecodeAccel(b: seq<byte>): (a: Accel)
    requires |b| == 5
    ensures 0 <= a.x < 1024 && 0 <= a.y < 1024 && 0 <= a.z < 1024
    ensures a.x / 4 == b[2] && a.y / 4 == b[3] && a.z / 4 == b[4]
    ensures a.x % 4 == (b[0] / 32) % 4 && a.y % 4 == (b[1] / 32) % 4
    ensures a.z % 4 == (b[1] / 128) * 2
  {
    Accel(b[2] as int * 4 + (b[0] / 32) % 4,
          b[3] as int * 4 + (b[1] / 32) % 4,
          b[4] as int * 4 + (b[1] / 128) * 2)
  }

  /** What a device sends for a reading: only readings whose z has a low bit
      pattern of 0 or 2 can be produced. */
  predicate Reportable(a: Accel)
  {
    && 0 <= a.x < 1024 && 0 <= a.y < 1024 && 0 <= a.z < 1024
    && (a.z % 4 == 0 || a.z % 4 == 2)
  }

  function EncodeAccel(a: Accel): (r: seq<byte>)
    requires Reportable(a)
    ensures |r| == 5
  {
    [(a.x % 4) * 32, (a.y % 4) * 32 + (a.z % 4 / 2) * 128, a.x / 4, a.y / 4, a.z / 4]
  }

  /** Decoding is exactly inverse to the device's packing of a reportable reading. */
  lemma DecodeEncodeAccel(a: Accel)
    requires Reportable(a)
    ensures DecodeAccel(EncodeAccel(a)) == a
  {
    var b := EncodeAccel(a);
    assert (b[1] / 32) % 4 == a.y % 4;
    assert b[1] / 128 == a.z % 4 / 2;
  }

  /** Every decoded reading is reportable, so the encoder covers the decoder's range. */
  lemma DecodedIsReportable(b: seq<byte>)
    requires |b| == 5
    ensures Reportable(DecodeAccel(b))
  {
  }

  /** x of the IR slot at offset `i`: `b[i] + ((b[i+2] & 0x30) << 4)`. */
  function SlotX(b: seq<byte>, i: nat): (x: int)
    requires i + 3 <= |b|
    ensures 0 <= x < 1024 && x % 256 == b[i] && x / 256 == (b[i + 2] / 16) % 4
  {
    b[i] as int + ((b[i + 2] as int / 16) % 4) * 256
  }

  /** y of the IR slot at offset `i`: `b[i+1] + ((b[i+2] & 0xC0) << 2)`. */
  function SlotY(b: seq<byte>, i: nat): (y: int)
    requires i + 3 <= |b|
    ensures 0 <= y < 1024 && y % 256 == b[i + 1] && y / 256 == b[i + 2] / 64
  {
    b[i + 1] as int + (b[i + 2] as int / 64) * 256
  }

  /** The IR slot at byte offset `i`, with size `b[i+2] & 0xF`; a slot with the
      sentinel in either coordinate yields no point. */
  function IRSlot(b: seq<byte>, i: nat): (p: Option<IRPoint>)
    requires i + 3 <= |b|
    ensures p.Some? <==> SlotX(b, i) != Sentinel && SlotY(b, i) != Sentinel
    ensures p.Some? ==> p.value.index == i && p.value.x == SlotX(b, i) && p.value.y == SlotY(b, i)
    ensures p.Some? ==> 0 <= p.value.x < Sentinel && 0 <= p.value.y < Sentinel
    ensures p.Some? ==> p.value.size == b[i + 2] % 16
  {
    var x := SlotX(b, i);
    var y := SlotY(b, i);
    var size := b[i + 2] % 16;
    if x != Sentinel && y != Sentinel then Some(IRPoint(i, x, y, size)) else None
  }

  /** Indices strictly increase along the sequence. */
  predicate Ascending(ps: seq<IRPoint>)
  {
    forall j, k :: 0 <= j < k < |ps| ==> ps[j].index < ps[k].index
  }

  /** `i` is one of the slot offsets visited from `start` in a block of `n` bytes. */
  predicate SlotOffset(i: int, start: nat, n: nat)
  {
    start <= i && i + 3 <= n && (i - start) % 3 == 0
  }

  /** The camera loop from offset `start`: one slot every three bytes, in order. */
  function IRFrom(b: seq<byte>, start: nat): (ps: seq<IRPoint>)
    requires start <= |b| && (|b| - start) % 3 == 0
    ensures Ascending(ps)
    ensures forall p :: p in ps <==> SlotOffset(p.index, start, |b|) && IRSlot(b, p.index) == Some(p)
    ensures |ps| <= (|b| - start) / 3
    decreases |b| - start
  {
    if start == |b| then []
    else
      var rest := IRFrom(b, start + 3);
      match IRSlot(b, start)
      case Some(p) => [p] + rest
      case None => rest
  }

  /** The twelve-byte camera block: at most four points, from the slots at
      offsets 0, 3, 6 and 9. */
  function DecodeIR(b: seq<byte>): (ps: seq<IRPoint>)
    requires |b| == 12
    ensures |ps| <= 4 && Ascending(ps)
    ensures forall p :: p in ps <==> SlotOffset(p.index, 0, 12) && IRSlot(b, p.index) == Some(p)
    ensures forall p :: p in ps ==> 0 <= p.x < Sentinel && 0 <= p.y < Sentinel && 0 <= p.size < 16
  {
    IRFrom(b, 0)
  }

  /** The slot offsets of the camera block are exactly 0, 3, 6 and 9. */
  lemma SlotOffsets(i: int)
    ensures SlotOffset(i, 0, 12) <==> i == 0 || i == 3 || i == 6 || i == 9
  {
  }

  /** Slot `i` of the block produces a point if and only if neither of its
      coordinates is the sentinel. */
  lemma {:induction false} EmittedIffNotSentinel(b: seq<byte>, i: int)
    requires |b| == 12 && (i == 0 || i == 3 || i == 6 || i == 9)
    ensures (exists p :: p in DecodeIR(b) && p.index == i)
            <==> SlotX(b, i) != Sentinel && SlotY(b, i) != Sentinel
  {
    var ps := DecodeIR(b);
    if SlotX(b, i) != Sentinel && SlotY(b, i) != Sentinel {
      var p := IRSlot(b, i).value;
      assert SlotOffset(p.index, 0, 12);
      assert p in ps;
    }
  }

  /** The three bytes a device sends for a point at `(x, y)` of the given size. */
  function EncodeIRSlot(x: int, y: int, size: int): (r: seq<byte>)
    requires 0 <= x < 1024 && 0 <= y < 1024 && 0 <= size < 16
    ensures |r| == 3
  {
    [x % 256, y % 256, (y / 256) * 64 + (x / 256) * 16 + size]
  }

  /** A slot reports back exactly the point it encodes, unless a coordinate is
      the sentinel, in which case it reports nothing. */
  lemma IRSlotEncode(x: int, y: int, size: int)
    requires 0 <= x < 1024 && 0 <= y < 1024 && 0 <= size < 16
    ensures IRSlot(EncodeIRSlot(x, y, size), 0)
            == if x != Sentinel && y != Sentinel then Some(IRPoint(0, x, y, size)) else None
  {
    var r := EncodeIRSlot(x, y, size);
    var hi := (y / 256) * 64 + (x / 256) * 16 + size;
    assert r[2] == hi;
    assert (hi / 16) % 4 == x / 256;
    assert hi / 64 == y / 256;
    assert hi % 16 == size;
    assert SlotX(r, 0) == x % 256 + (x / 256) * 256 == x;
    assert SlotY(r, 0) == y % 256 + (y / 256) * 256 == y;
  }

  /** A slot whose high byte carries both top bit pairs over 0xFF coordinates is suppressed. */
  lemma SentinelSlotSuppressed(b: seq<byte>)
    requires |b| == 12 && b[0] == 0xFF && b[1] == 0xFF && b[2] / 16 == 0xF
    ensures forall p :: p in DecodeIR(b) ==> p.index != 0
  {
    assert SlotX(b, 0) == Sentinel;
  }
}

=== FILE: session.dfy ===
/** One connected remote (the current driver): its state, the single step of
    the receive loop that turns one report into events, the routing of those
    events to listeners, and the commands a caller can send. */
module Session {
  import opened Bytes
  import opened Sensors
  import CalibrationStore
  import opened Events
  import opened ButtonState
  import opened Extension
  import Commands
  import Listeners

  /** The session state the receive loop and the command operations keep. */
  datatype State<L> = State(
    cal: CalibrationStore.Calibration,
    buttons: Buttons,
    listeners: seq<L>,
    light: int)

  /** What every reachable state satisfies: calibration values are 10-bit,
      the light is -1 (none chosen) or 0..3, and no listener is registered twice. */
  predicate Valid<L(==)>(s: State<L>)
  {
    CalibrationStore.Valid(s.cal) && -1 <= s.light <= 3 && Listeners.NoDuplicates(s.listeners)
  }

  /** A newly connected remote: uncalibrated, all buttons released, no
      listeners, no light; it sends the calibration read request. */
  function Open<L>(): (r: (State<L>, seq<seq<byte>>))
    ensures r.0.buttons == Released && r.0.light == -1 && r.0.listeners == []
    ensures r.0.cal == CalibrationStore.Uncalibrated
    ensures r.1 == [Commands.ReadCalibration()]
  {
    (State(CalibrationStore.Uncalibrated, Released, [], -1), [Commands.ReadCalibration()])
  }

  lemma OpenValid<L>()
    ensures Valid(Open<L>().0)
  {
  }

  /** The receive buffer: 32 bytes. */
  type Frame = f: seq<byte> | |f| == 32 witness Commands.Zeros(32)

  /** A fresh buffer filled with as much of the incoming packet as fits; a
      failed read leaves it all zero. */
  function Receive(packet: seq<byte>): (f: Frame)
    ensures forall k :: 0 <= k < 32 && k < |packet| ==> f[k] == packet[k]
    ensures forall k :: |packet| <= k < 32 ==> f[k] == 0
  {
    if |packet| >= 32 then packet[..32] else packet + Commands.Zeros(32 - |packet|)
  }

  /** The report types the decoder acts on. */
  const ReadData: byte := 0x21
  const ButtonsOnly: byte := 0x30
  const ButtonsAccelIR: byte := 0x33
  const ButtonsAccelExtension: byte := 0x37

  /** The IR points as events of this driver; the older driver has its own
      event type, and so its own copy of this conversion. */
  function IREvents(ps: seq<IRPoint>): (es: seq<Event>)
    ensures |es| == |ps|
    ensures forall k :: 0 <= k < |ps| ==> es[k] == IREvent(ps[k])
  {
    seq(|ps|, k requires 0 <= k < |ps| => IREvent(ps[k]))
  }

  /** The remote accelerometer block is bytes 2..6 of the report. */
  function RemoteAccel(f: Frame): (e: Event)
    ensures e.AccelEvent? && e.source == WiiRemote && Reportable(e.accel)
    ensures e.accel.x / 4 == f[4] && e.accel.y / 4 == f[5] && e.accel.z / 4 == f[6]
    ensures e.accel.x % 4 == (f[2] / 32) % 4 && e.accel.y % 4 == (f[3] / 32) % 4
    ensures e.accel.z % 4 == (f[3] / 128) * 2
  {
    DecodedIsReportable(f[2..7]);
    AccelEvent(WiiRemote, DecodeAccel(f[2..7]))
  }

  /** The button word from report bytes 2..3. */
  function ButtonWordOf(f: Frame): int
  {
    ButtonWord(f[2], f[3])
  }

  /** One pass of the receive loop: dispatch on the report type in byte 1. */
  function Step<L>(s: State<L>, f: Frame): (r: (State<L>, seq<Event>))
    ensures r.0.listeners == s.listeners && r.0.light == s.light
    ensures f[1] != ReadData ==> r.0.cal == s.cal
    ensures f[1] != ReadData && f[1] != ButtonsOnly && f[1] != ButtonsAccelIR && f[1] != ButtonsAccelExtension
            ==> r == (s, [])
  {
    if f[1] == ReadData then
      (s.(cal := CalibrationStore.Parse(f[7..15])), [])
    else if f[1] == ButtonsOnly then
      var (b, es) := UpdateRemote(s.buttons, ButtonWord(f[2], f[3]));
      (s.(buttons := b), es)
    else if f[1] == ButtonsAccelIR then
      var (b, es) := UpdateRemote(s.buttons, ButtonWord(f[2], f[3]));
      (s.(buttons := b), es + [RemoteAccel(f)] + IREvents(DecodeIR(f[7..19])))
    else if f[1] == ButtonsAccelExtension then
      var (b, es) := UpdateRemote(s.buttons, ButtonWord(f[2], f[3]));
      var (b', xs) := DecodeExtension(b, f[17..23]);
      (s.(buttons := b'), es + [RemoteAccel(f)] + xs)
    else
      (s, [])
  }

  /** The receive loop keeps the session state valid. */
  lemma StepValid<L>(s: State<L>, f: Frame)
    requires Valid(s)
    ensures Valid(Step(s, f).0)
  {
  }

  /** A failed read leaves a zero buffer, whose report type 0 is ignored. */
  lemma FailedReadIgnored<L>(s: State<L>)
    ensures Step(s, Receive([])) == (s, [])
  {
  }

  predicate AllButtonEvents(es: seq<Event>)
  {
    forall k :: 0 <= k < |es| ==> es[k].ButtonEvent?
  }

  /** Report 0x21 replaces the calibration with the one parsed from bytes
      7..14 and changes nothing else. */
  lemma ReadDataReport<L>(s: State<L>, f: Frame, g: Frame)
    requires f[1] == ReadData
    ensures Step(s, f).1 == [] && Step(s, f).0 == s.(cal := Step(s, f).0.cal)
    ensures Step(s, f).0.cal == CalibrationStore.Parse(f[7..15])
    ensures CalibrationStore.Valid(Step(s, f).0.cal)
    ensures g[1] == ReadData && f[7..15] == g[7..15] ==> Step(s, f) == Step(s, g)
  {
  }

  /** The button-word bytes 2..3 are read only through the low four bits of byte 3. */
  lemma ButtonWordFromByte3(f: Frame, g: Frame)
    requires f[3] == g[3]
    ensures forall b: Buttons :: UpdateRemote(b, ButtonWord(f[2], f[3])) == UpdateRemote(b, ButtonWord(g[2], g[3]))
  {
    ButtonWordLowBits(f[2], f[3], 8);
    ButtonWordLowBits(f[2], f[3], 4);
    ButtonWordLowBits(f[2], f[3], 2);
    ButtonWordLowBits(f[2], f[3], 1);
    ButtonWordLowBits(g[2], g[3], 8);
    ButtonWordLowBits(g[2], g[3], 4);
    ButtonWordLowBits(g[2], g[3], 2);
    ButtonWordLowBits(g[2], g[3], 1);
  }

  /** Report 0x30 changes only the remote buttons and reports only button
      events; of the report it reads nothing but byte 3. */
  lemma ButtonsOnlyReport<L>(s: State<L>, f: Frame, g: Frame)
    requires f[1] == ButtonsOnly
    ensures Step(s, f).0 == s.(buttons := Step(s, f).0.buttons)
    ensures Step(s, f).0.buttons.z == s.buttons.z && Step(s, f).0.buttons.c == s.buttons.c
    ensures AllButtonEvents(Step(s, f).1)
    ensures Step(s, f).1 == Transitions(s.buttons, Step(s, f).0.buttons, RemoteOrder)
    ensures g[1] == ButtonsOnly && f[3] == g[3] ==> Step(s, f) == Step(s, g)
  {
    var w := ButtonWord(f[2], f[3]);
    RemoteEvents(s.buttons, w);
    TransitionsAreButtonEvents(s.buttons, UpdateRemote(s.buttons, w).0, RemoteOrder);
    assert Step(s, f) == (s.(buttons := UpdateRemote(s.buttons, w).0), UpdateRemote(s.buttons, w).1);
    if g[1] == ButtonsOnly && f[3] == g[3] {
      ButtonWordFromByte3(f, g);
    }
  }

  /** Every remote button state equals its bit in byte 3 after any report that
      carries buttons: A is bit 3, B bit 2, 1 bit 1, 2 bit 0, set meaning pressed. */
  lemma RemoteButtonsFollowByte3<L>(s: State<L>, f: Frame)
    requires f[1] == ButtonsOnly || f[1] == ButtonsAccelIR || f[1] == ButtonsAccelExtension
    ensures var b := Step(s, f).0.buttons;
            b.a == !Clear(f[3], 8) && b.b == !Clear(f[3], 4) && b.one == !Clear(f[3], 2) && b.two == !Clear(f[3], 1)
  {
    ButtonWordLowBits(f[2], f[3], 8);
    ButtonWordLowBits(f[2], f[3], 4);
    ButtonWordLowBits(f[2], f[3], 2);
    ButtonWordLowBits(f[2], f[3], 1);
  }

  /** Report 0x33 reports the button changes, then the remote acceleration
      from bytes 2..6, then the IR points from bytes 7..18; it reads nothing
      else of the report. */
  lemma ButtonsAccelIRReport<L>(s: State<L>, f: Frame, g: Frame)
    requires f[1] == ButtonsAccelIR
    ensures var (s', es) := Step(s, f);
            var n := |es| - 1 - |DecodeIR(f[7..19])|;
            && s' == s.(buttons := s'.buttons)
            && 0 <= n <= 4 && AllButtonEvents(es[..n])
            && es[..n] == Transitions(s.buttons, s'.buttons, RemoteOrder)
            && s'.buttons.z == s.buttons.z && s'.buttons.c == s.buttons.c
            && es[n] == AccelEvent(WiiRemote, DecodeAccel(f[2..7]))
            && es[n + 1..] == IREvents(DecodeIR(f[7..19]))
    ensures g[1] == ButtonsAccelIR && f[2..19] == g[2..19] ==> Step(s, f) == Step(s, g)
  {
    var w := ButtonWord(f[2], f[3]);
    RemoteEvents(s.buttons, w);
    TransitionsAreButtonEvents(s.buttons, UpdateRemote(s.buttons, w).0, RemoteOrder);
    if g[1] == ButtonsAccelIR && f[2..19] == g[2..19] {
      assert f[2] == g[2] && f[3] == g[3];
      assert f[2..7] == f[2..19][..5] == g[2..19][..5] == g[2..7];
      assert f[7..19] == f[2..19][5..] == g[2..19][5..] == g[7..19];
    }
  }

  /** Reference events are all button events, at most one per examined button. */
  lemma {:induction false} TransitionsAreButtonEvents(before: Buttons, after: Buttons, ids: seq<Button>)
    ensures AllButtonEvents(Transitions(before, after, ids))
    ensures |Transitions(before, after, ids)| <= |ids|
  {
    if ids != [] {
      TransitionsAreButtonEvents(before, after, ids[1..]);
    }
  }

  /** Report 0x37 reports the button changes, the remote acceleration, then
      the extension events (nunchuk acceleration, joystick, Z, C) from bytes
      17..22; the IR bytes 7..16 are not read. */
  lemma ButtonsAccelExtensionReport<L>(s: State<L>, f: Frame, g: Frame)
    requires f[1] == ButtonsAccelExtension
    ensures var (s', es) := Step(s, f);
            var n := |es| - 1 - |DecodeExtension(UpdateRemote(s.buttons, ButtonWord(f[2], f[3])).0, f[17..23]).1|;
            && s' == s.(buttons := s'.buttons)
            && 0 <= n <= 4 && AllButtonEvents(es[..n])
            && es[..n] == Transitions(s.buttons, UpdateRemote(s.buttons, ButtonWord(f[2], f[3])).0, RemoteOrder)
            && s'.buttons.z == Clear(Decrypt(f[22]), 1) && s'.buttons.c == Clear(Decrypt(f[22]), 2)
            && es[n] == AccelEvent(WiiRemote, DecodeAccel(f[2..7]))
            && es[n + 1..] == DecodeExtension(UpdateRemote(s.buttons, ButtonWord(f[2], f[3])).0, f[17..23]).1
            && es[n + 1].AccelEvent? && es[n + 1].source == Nunchuk
            && es[n + 2].JoystickEvent?
            && AllButtonEvents(es[n + 3..])
    ensures g[1] == ButtonsAccelExtension && f[2..7] == g[2..7] && f[17..23] == g[17..23]
            ==> Step(s, f) == Step(s, g)
  {
    var w := ButtonWord(f[2], f[3]);
    var (b, bs) := UpdateRemote(s.buttons, w);
    var (b', xs) := DecodeExtension(b, f[17..23]);
    RemoteEvents(s.buttons, w);
    TransitionsAreButtonEvents(s.buttons, b, RemoteOrder);
    ExtensionButtonEvents(b, f[17..23]);
    TransitionsAreButtonEvents(b, b', ExtensionOrder);
    var es := bs + [RemoteAccel(f)] + xs;
    assert Step(s, f) == (s.(buttons := b'), es);
    assert es[..|bs|] == bs && es[|bs|] == RemoteAccel(f) && es[|bs| + 1..] == xs;
    assert f[17..23][5] == f[22];
    if g[1] == ButtonsAccelExtension && f[2..7] == g[2..7] && f[17..23] == g[17..23] {
      assert f[2] == g[2] && f[3] == g[3];
    }
  }

  /** Seeing the same report twice reports no button event the second time. */
  lemma SameReportTwice<L>(s: State<L>, f: Frame)
    ensures var s' := Step(s, f).0;
            Step(s', f).0 == s' && (f[1] == ButtonsOnly ==> Step(s', f).1 == [])
  {
    var w := ButtonWord(f[2], f[3]);
    RemoteSteady(s.buttons, w);
    if f[1] == ButtonsAccelExtension {
      var b := UpdateRemote(s.buttons, w).0;
      var b' := DecodeExtension(b, f[17..23]).0;
      ExtensionSteady(b, f[17..23]);
      assert UpdateRemote(b', w).0 == b';
    }
  }

  /** The listener callbacks. */
  datatype Handler =
    | ButtonPress
    | ButtonRelease
    | IRInput
    | AccelInput
    | NunchukAccelInput
    | NunchukJoystickInput

  /** The listener interface: which events each callback takes. */
  predicate Accepts(h: Handler, e: Event)
  {
    match h
    case ButtonPress => e.ButtonEvent? && e.wasPress
    case ButtonRelease => e.ButtonEvent? && !e.wasPress
    case IRInput => e.IREvent?
    case AccelInput => e.AccelEvent? && e.source == WiiRemote
    case NunchukAccelInput => e.AccelEvent? && e.source == Nunchuk
    case NunchukJoystickInput => e.JoystickEvent?
  }

  /** The type tests `dispatchEvent` performs for each listener. */
  function Route(e: Event): (h: Handler)
    ensures Accepts(h, e)
  {
    match e
    case ButtonEvent(_, wasPress) => if wasPress then ButtonPress else ButtonRelease
    case IREvent(_) => IRInput
    case AccelEvent(source, _) => if source == WiiRemote then AccelInput else NunchukAccelInput
    case JoystickEvent(_, _) => NunchukJoystickInput
  }

  /** Every event has exactly one callback that takes it, and it is the one
      dispatch calls. */
  lemma RouteUnique(h: Handler, e: Event)
    ensures Accepts(h, e) <==> h == Route(e)
  {
  }

  /** The receive loop with dispatch: the new state and every callback made,
      in order. */
  function Deliver<L>(s: State<L>, f: Frame): (r: (State<L>, seq<Listeners.Delivery<L, Event, Handler>>))
    ensures r.0 == Step(s, f).0
    ensures |r.1| == |s.listeners| * |Step(s, f).1|
    ensures forall k :: 0 <= k < |r.1| ==> r.1[k].handler == Route(r.1[k].event) && r.1[k].listener in s.listeners
  {
    var (s', es) := Step(s, f);
    (s', Listeners.DispatchAll(s.listeners, es, Route))
  }

  /** Each event of the report reaches the whole listener list, in list order,
      before the next event is dispatched: callback `i` of event `j` comes at
      position `j * |listeners| + i`. */
  lemma DeliverAt<L>(s: State<L>, f: Frame, j: nat, i: nat)
    requires j < |Step(s, f).1| && i < |s.listeners|
    ensures 0 <= j * |s.listeners| + i < |Deliver(s, f).1|
            && Deliver(s, f).1[j * |s.listeners| + i]
            == Listeners.Delivery(s.listeners[i], Route(Step(s, f).1[j]), Step(s, f).1[j])
  {
    Listeners.DispatchAllAt(s.listeners, Step(s, f).1, Route, j, i);
  }

  /** Each registered listener is called once per event of the report, in the
      order the decoder produced them, on the callback for that event. */
  lemma DeliverToEveryListener<L>(s: State<L>, f: Frame, l: L)
    requires Valid(s)
    ensures Listeners.Received(Deliver(s, f).1, l) == if l in s.listeners then Step(s, f).1 else []
  {
    Listeners.EveryListenerSeesEveryEvent(s.listeners, Step(s, f).1, Route, l);
  }

  function AddListener<L(==)>(s: State<L>, l: L): (r: State<L>)
    ensures Valid(s) ==> Valid(r)
    ensures r == s.(listeners := r.listeners)
    ensures l in r.listeners
    ensures l in s.listeners ==> r == s
    ensures l !in s.listeners ==> r.listeners == s.listeners + [l]
    ensures forall k :: 0 <= k < |s.listeners| ==> s.listeners[k] in r.listeners
    ensures forall k :: 0 <= k < |r.listeners| ==> r.listeners[k] in s.listeners || r.listeners[k] == l
  {
    s.(listeners := Listeners.Add(s.listeners, l))
  }

  function RemoveListener<L(==)>(s: State<L>, l: L): (r: State<L>)
    ensures Valid(s) ==> Valid(r) && l !in r.listeners
    ensures r == s.(listeners := r.listeners)
    ensures forall k :: 0 <= k < |s.listeners| && s.listeners[k] != l ==> s.listeners[k] in r.listeners
    ensures forall k :: 0 <= k < |r.listeners| ==> r.listeners[k] in s.listeners
    ensures l !in s.listeners ==> r == s
    ensures l in s.listeners ==> var k := Listeners.FirstIndex(s.listeners, l);
                                 r.listeners == s.listeners[..k] + s.listeners[k + 1..]
  {
    if l in s.listeners then
      Listeners.RemoveFirstOccurrence(s.listeners, l);
      s.(listeners := Listeners.Remove(s.listeners, l))
    else
      s.(listeners := Listeners.Remove(s.listeners, l))
  }

  /** `setLight(i)` on the session: the light index is kept for `vibrate`. */
  function SetLight<L(==)>(s: State<L>, i: int): (r: (State<L>, seq<seq<byte>>))
    ensures Valid(s) ==> Valid(r.0)
    ensures r.0 == s.(light := r.0.light)
    ensures (0 <= i <= 3) == (r.0.light == i && |r.1| == 1)
    ensures !(0 <= i <= 3) ==> r == (s, [])
    ensures 0 <= i <= 3 ==> r.1 == Commands.SetLight(s.light, i).1
  {
    var (light, frames) := Commands.SetLight(s.light, i);
    (s.(light := light), frames)
  }

  /** `vibrate` on the session, using the light chosen last. */
  function Vibrate<L(==)>(s: State<L>): (r: seq<seq<byte>>)
    requires Valid(s)
    ensures r == [Commands.Frame(Commands.CommandLight, [Commands.LightBits(s.light) + 1]),
                  Commands.Frame(Commands.CommandLight, [Commands.LightBits(s.light)])]
  {
    Commands.VibrateBytes(s.light);
    Commands.Vibrate(s.light)
  }
}
